=== FILE: README.md ===
# Falling-objects dodging game: decision and physics core in Dafny

This project models the deterministic core of a two-player game in which a human
player and a computer player dodge objects falling from the top of an arena; the
first player struck loses. It covers:

- the falling objects (spawn from random draws, fall by their speed, leave the arena);
- the shared player movement primitive (one step, then a clamp into the arena);
- the heuristic computer player: threat ranking, the 50-unit-lane safe-zone search,
  the cooldown decision engine and the damped steering;
- the game session: reset, spawn interval, tick update, collision/winner rules,
  and the menu / playing / game-over key transitions;
- the reinforcement-learning environment: discrete actions, the spawn schedule with
  an object cap, strict rectangle collision, the shaped reward and termination;
- the learned-policy player and the 12-entry observation vector it shares with the
  environment.

Everything is immutable records and pure functions over exact `real`s. Positions and
speeds that Python keeps as floats are `real`. Object x and sizes come from
`random.randint`, so they are `int`. The configuration module of the game is not
part of this model. Its constants form a `GameConfig.Config` record, and
`Config.Valid` lists what the code relies on them to satisfy. Two external inputs
become parameters:

- the random draws of a spawn, as a `FallingObjects.Draw` with range preconditions;
- the trained model's `predict`, as a function `seq<real> -> int`.

Python's `//` on a positive divisor is floor division. Dafny's `/` agrees with it
for every numerator when the divisor is positive, so `width / 2` is the code's
`width // 2`.

The defining predicates are `FallingObjects.IsOffScreen` (falling_object.py:17-18),
`Heuristic.WillCollide` and `Heuristic.IsThreat` (ai_player.py:24-30),
`Heuristic.Endangers` (ai_player.py:50-55), `Game.Hit` (game.py:45-50),
`TrainingEnv.Collides` (training_env.py:82-91), `TrainingEnv.NearMiss`
(training_env.py:96-100) and `Observations.Tracked` (trained_ai_player.py:18). The
contracts and lemmas listed below are stated in their terms.

Modules: `Wrappers` (Option), `GameConfig`, `Sequences` (stable sort, first
minimum, sums), `FallingObjects`, `Players`, `Heuristic` (ai_player.py),
`Observations` (the shared observation builder), `TrainedAI`, `Game`, `TrainingEnv`.

Points of the code's behaviour that the model keeps exactly:

- The safe-zone search counts an object only when its projected y is strictly
  greater than the player's y (ai_player.py:55).
- In a collision pass the winner is not fixed by the first strike. Each strike
  overwrites it, so the later strike decides. When both players are struck by the
  same object, the computer player's check runs second (game.py:43-53).
- An object with speed at most 0 is given an infinite impact time. Its threat level
  is then `1/(inf+1)`, which is 0, so a threat level lies in [0, 1]
  (ai_player.py:17, 31).
- The three branches of `decide_action` (threat to the left, to the right, overhead)
  all take the same safe zone (ai_player.py:80-86). The model keeps that as a
  single query.

## Model

| member | source | states |
|---|---|---|
| Sequences.SortBy | ai_player.py:39 | the sorted sequence is a permutation of its input and is non-decreasing in the key |
| Sequences.SortByStable | ai_player.py:39 | for every key value, the elements with that key appear in the output in their input order (the sort is stable) |
| Sequences.LeftmostMin | ai_player.py:64 | `min` with a key returns an element no larger than any other and strictly smaller than every earlier one |
| Sequences.SumOfPermutation | ai_player.py:49-57 | a sum of per-object terms is the same for any ordering of the objects |
| Sequences.SumOfPositive | ai_player.py:49-57 | a sum of non-negative terms is positive exactly when some term is positive |
| FallingObjects.Spawn | falling_object.py:6-11 | a new object has size and speed in the configured ranges, lies horizontally inside the arena, sits just above the top edge (y = -size) and is not off-screen |
| FallingObjects.Advance | falling_object.py:13-15 | one tick adds exactly the speed to y and changes nothing else |
| FallingObjects.AdvanceNPosition | falling_object.py:13-15 | after n ticks y has grown by n times the speed, all else unchanged |
| FallingObjects.OffScreenStaysOffScreen | falling_object.py:13-18 | with speed at least 0, an off-screen object stays off-screen on every later tick |
| FallingObjects.EventuallyOffScreen | falling_object.py:13-18 | with positive speed, some finite number of ticks takes the object below the arena |
| FallingObjects.AdvanceAll | game.py:66-67 | every live object advances once, list length and order kept |
| FallingObjects.Prune | game.py:69 | an object survives the prune iff it was live and is not off-screen |
| FallingObjects.PruneAppend | game.py:69 | pruning distributes over concatenation, so the survivors keep their relative order |
| Players.NewPlayer | player.py:5-14 | a new player is alive, at the given position, with the configured size and speed |
| Players.Move | player.py:16-19 | after a move x lies in [0, screen width - width] for any dx; an in-bounds step is taken exactly, and an out-of-bounds one stops at the wall it crossed; only x changes, and the rectangle is derived from x |
| Players.MoveMonotone | player.py:16-19 | from an in-bounds x, dx >= 0 never decreases x and dx <= 0 never increases it |
| Players.HandleInput | player.py:47-51 | LEFT alone is move(-1), RIGHT alone is move(1), no key leaves the player unchanged, and any move ends inside the arena |
| Players.BothKeysCancel | player.py:47-51 | with both keys held, from an x at least one full step from the left wall, the player ends where it started |
| Heuristic.NewAIPlayer | ai_player.py:6-10 | a new computer player targets its own x and has no cooldown |
| Heuristic.ThreatLevel | ai_player.py:16-31 | the level lies in [0, 1] and is 0 exactly when the impact time is infinite |
| Heuristic.ThreatLevelSoonerIsHigher | ai_player.py:31 | for impact times a <= b the level of a is at least that of b, and strictly greater when a < b |
| Heuristic.MakeThreat | ai_player.py:15-37 | the impact time is the distance from the object to the player's top-edge line divided by the speed (impact time times speed equals that distance), and the level is 1/(t+1) of it; speed at most 0 gives an infinite impact time and level 0 without dividing; positive speed gives a positive impact time and a level strictly between 0 and 1 |
| Heuristic.Candidates | ai_player.py:15-37 | every candidate comes from a live object above the reaction line that passes the look-ahead test, and every such object yields one |
| Heuristic.CandidatesAppend | ai_player.py:15-37 | the candidates of two object lists joined are the candidates of each, joined: threats keep the order of their objects, which is the order the stable sort preserves among equal levels |
| Heuristic.AnalyzeThreats | ai_player.py:12-39 | the threats are sorted by non-increasing level, are exactly the threats of qualifying objects (a permutation of the candidates), keep object order among equal levels, have levels in [0, 1], and are non-empty iff some object qualifies |
| Heuristic.AnalyzeThreatsSoonerFirst | ai_player.py:16-39 | in the ranking, every threat before one with a finite impact time also has a finite impact time, and one no later: the soonest impact comes first |
| Heuristic.HigherLevelIsSooner | ai_player.py:17-31 | of two threats whose levels are 1/(t+1) of their impact times, the one with the level at least as high has a finite impact time that is no later |
| Heuristic.Contribution | ai_player.py:49-57 | an object adds between 0 and 100 to a lane, positive exactly when it is in the upper half, will be past the player's top after 60 ticks, and is closer than its size plus the player width |
| Heuristic.ContributionValue | ai_player.py:57 | a contributing object adds exactly 100/(d+1), d being its distance to the lane centre |
| Heuristic.NearerObjectWeighsMore | ai_player.py:52-57 | of two objects within a lane's reach, the nearer one adds strictly more danger |
| Heuristic.LaneDanger | ai_player.py:46-57 | a lane's danger is at least 0, and is 0 when no object endangers the player |
| Heuristic.LaneDangerIsSum | ai_player.py:47-57 | the danger score equals the sum of the objects' contributions |
| Heuristic.LaneDangerPositiveIff | ai_player.py:49-57 | a lane's danger is positive exactly when some object endangering the player is closer to the lane than its size plus the player width |
| Heuristic.LaneDangerIgnoresOrder | ai_player.py:49-57 | a lane's danger score is the same for any ordering of the objects |
| Heuristic.LanesAreMultiples | ai_player.py:45 | the lanes are exactly the multiples of 50 below screen width - width, and there is at least one |
| Heuristic.FindSafeZone | ai_player.py:41-65 | the result is a multiple of 50 in [0, screen width - width), its danger is minimal among all lanes, and every lane to its left is strictly more dangerous |
| Heuristic.FindSafeZoneIgnoresOrder | ai_player.py:49-57 | reordering the objects does not change the chosen lane |
| Heuristic.FindSafeZoneWithoutDanger | ai_player.py:45-64 | with no endangering object (in particular with no objects) the leftmost lane, x = 0, is chosen |
| Heuristic.DecideAction | ai_player.py:67-92 | a running cooldown only counts down; otherwise a threat sets the target to the safe zone and the cooldown to 5; otherwise the target becomes the centre position exactly when x is more than 100 from it; the body never changes |
| Heuristic.CooldownHoldsTarget | ai_player.py:68-70 | for as many ticks as the cooldown allows, whatever the objects, only the cooldown changes |
| Heuristic.ThreatTargetHeld | ai_player.py:68-88 | a threat-driven target is kept through the next 5 decisions, after which the cooldown is 0 |
| Heuristic.Steer | ai_player.py:97-102 | within 5 of the target the player stays put; otherwise it moves by 0.8 of its speed towards the target, clamped by move |
| Heuristic.SteerApproachesTarget | ai_player.py:97-102 | towards an in-arena target, a step moves in the target's direction; it closes the distance by exactly one damped step or overshoots by less than one step; and it strictly reduces the distance when the step is below twice the distance |
| Heuristic.Update | ai_player.py:94-102 | an update first decides: with the cooldown running the target is held and the cooldown counts down, and with a threat present and no cooldown the target becomes the safe zone with a cooldown of 5; it then steers towards the target just decided, keeping still within the deadband and otherwise taking a 0.8-damped step in the target's direction; size, speed, y and liveness are kept, and an in-bounds player stays in bounds |
| Observations.TrackedFeatures | trained_ai_player.py:17-23 | a feature triple exists for exactly the objects above 60% of the arena height |
| Observations.TrackedFeaturesAppend | trained_ai_player.py:17-24 | the features of two object lists joined are the features of each, joined: features keep the order of their objects, which the stable sort by vertical distance preserves among ties |
| Observations.Nearest | trained_ai_player.py:24 | the tracked triples are stably sorted by vertical distance, ascending |
| Observations.SlotFeatures | trained_ai_player.py:24-28 | exactly 3 slots: the first nearest triples, then the padding triple [0, 1, 0] |
| Observations.Flatten | trained_ai_player.py:36-37 | the triples are laid end to end, triple k at positions 3k to 3k+2 |
| Observations.Observe | trained_ai_player.py:13-39 | the observation always has 12 entries: the normalised centre, right gap and x, then the 3 slot triples |
| Observations.SlotsHoldNearestTracked | trained_ai_player.py:17-28 | every non-padding slot comes from a tracked object, and no tracked object left out is nearer than one shown |
| Observations.NothingTrackedGivesPadding | trained_ai_player.py:27-28 | with no tracked object, all three threat triples are [0, 1, 0] |
| TrainedAI.NewTrainedPlayer | trained_ai_player.py:8-11 | a new learned-policy player is alive at its position, with last action 0 |
| TrainedAI.Observation | trained_ai_player.py:13-39 | the policy always sees 12 entries |
| TrainedAI.ApplyAction | trained_ai_player.py:52-55 | action 1 is one `move(-1)` and action 2 one `move(1)`, the same steps as the manual player's LEFT and RIGHT keys; any other action leaves the player unchanged; no action changes anything but x |
| TrainedAI.ApplyActionDirection | trained_ai_player.py:52-55 | from inside the arena, action 1 never moves right, action 2 never moves left, and the player stays inside |
| TrainedAI.Update | trained_ai_player.py:41-57 | without a model nothing changes; with one, the policy's action on the observation is applied and recorded as the last action |
| Game.Reset | game.py:26-37 | after a reset there are no objects, the frame count is 0 and there is no winner; both players are alive at (100, H - 100) and (W - 150, H - 100); the computer player is the learned one iff the session uses it, with the session's model and last action 0, or else the heuristic one with its target at its own x and no cooldown; the phase is kept |
| Game.NewGame | game.py:9-37 | a session starts at the menu in the state `reset_game` leaves: no objects, frame count 0, no winner, both players alive at (100, H - 100) and (W - 150, H - 100), the computer player learned iff requested, with last action 0, or heuristic with its target at its own x and no cooldown |
| Game.SpawnObject | game.py:39-41 | exactly one object is appended iff the frame count is a multiple of the spawn interval; otherwise nothing changes |
| Game.CollideAll | game.py:43-53 | a collision pass changes only liveness, winner and phase, never revives a player, and can only move the phase to game over |
| Game.FirstHit | game.py:44-50 | the index returned is of an overlapping object with none before it; no index means no object overlaps |
| Game.CollisionOutcome | game.py:43-53 | a live player is struck iff some object overlaps it, and then dies and the phase becomes game over; the winner is the other player of the later strike, with the computer player's strike counted later on the same object |
| Game.CheckCollisionsOutcome | game.py:43-53 | after `check_collisions` a live player is dead iff some live object overlaps it; only liveness, winner and phase change; the winner and phase are those of the reference outcome |
| Game.OpponentUpdate | game.py:63-64 | either kind of computer player moves only horizontally and keeps its kind |
| Game.Update | game.py:55-71 | outside play nothing changes; while playing the frame count grows by exactly 1; the manual player moves by its keys and the computer player by its own update on the objects before they fall, and the session's flags are kept; the live objects are exactly last tick's plus the one spawned on the new frame count, each fallen by its speed, minus those off-screen; a live player survives iff no live object overlaps it afterwards, nobody is revived, and the winner and phase are those of the reference collision outcome |
| Game.HandleEvent | game.py:154-168 | SPACE goes from menu to playing and from game over to menu, each with a reset; SPACE while playing changes nothing; ESC or closing the window stops the session |
| Game.HandleEvents | game.py:153-170 | the session keeps running iff none of the frame's events is ESC or closing the window; a stopping first event returns at once with the state unchanged; without SPACE the state is unchanged |
| Game.HandleEventsOutcome | game.py:153-170 | the state after a frame's events depends only on the number of SPACE presses before the first stopping event: none leaves it unchanged; from the menu one or more start a fresh game; from game over one goes to a fresh menu and two or more to a fresh game; while playing SPACE is ignored |
| TrainingEnv.NewEnv | training_env.py:10-27 | a new environment has its player's left edge at W // 2, no objects, zero frame, step and collision counts, is not over and allows 10000 steps |
| TrainingEnv.Reset | training_env.py:30-40 | a reset centres the player, empties the objects, zeroes every counter, clears game over and returns a 12-entry observation |
| TrainingEnv.Observation | training_env.py:42-68 | the environment's observation always has 12 entries |
| TrainingEnv.SpawnRate | training_env.py:72-77 | the spawn interval is 60 below 1000 steps, 40 from 3000 steps, and 50 in between |
| TrainingEnv.SpawnRateNonIncreasing | training_env.py:72-77 | the spawn interval never grows as steps accumulate |
| TrainingEnv.SpawnObjects | training_env.py:70-80 | the frame count grows by 1 on every call; an object is appended exactly on the interval while fewer than 15 are live; spawning never takes the count above 15 |
| TrainingEnv.TouchingIsNotColliding | training_env.py:82-91 | an object that only shares an edge with the player, on the player's left, right, top or bottom side, does not collide |
| TrainingEnv.NearMissReward | training_env.py:93-101 | the near-miss reward is never negative |
| TrainingEnv.NearMisses | training_env.py:96-99 | an object is a near miss iff it lies between H - 120 and H - 40 with its centre within 80 of the player's |
| TrainingEnv.NearMissRewardCounts | training_env.py:93-101 | the near-miss reward is 0.4 times the number of near misses |
| TrainingEnv.ActionX | training_env.py:110-113 | action 1 moves two steps left, stopping at 0; action 2 moves two steps right, stopping at screen width - width; any other action leaves x unchanged |
| TrainingEnv.ActionKeepsInArena | training_env.py:110-113 | from inside the arena every action stays inside it |
| TrainingEnv.Step | training_env.py:104-145 | a finished episode answers with reward 0, terminated and no change; otherwise the step count grows by 1 and the action moves the player; the objects are last step's plus one spawned on the schedule of the new step count while fewer than 15 are live, each fallen by its speed, minus those off-screen; a collision costs 3, ends the episode and is counted; reaching the step limit adds 1 and sets both terminated and truncated; without a collision the reward is at least 0; the observation is the 12-entry one of the new state; the object cap of 15 is kept |

## Left out

- Rendering and presentation: the `draw*` methods, fonts, captions, `display.flip`, the `run` loop and `clock.tick`. They affect no state the core reads.
- Raw input: `pygame.event.get` and `pygame.key.get_pressed` become an event sequence and two key flags.
- Rectangles: pygame's `Rect` truncates coordinates to integers, and `colliderect` lives in a library outside this model. Collision is modelled as strict overlap on the exact coordinates, as the environment's own test writes it.
- Randomness: `random.randint` and `random.uniform` in the object constructor become a `Draw` argument whose values lie in the configured ranges.
- Floating point: IEEE rounding, the `float('inf')` arithmetic (an infinite impact time is `None`, and its level is the 0 the code computes) and numpy's `float32` cast of the observation.
- Negative impact times: `1/(t+1)` has a zero divisor when a threat's impact time is -1, and a level outside [0, 1] for any other negative impact time. `Config.Valid` rules both out by requiring the reaction line to lie at or above y = screen height - player height, the line from which the code measures the distance to impact (ai_player.py:16). With that requirement every threat's impact time is positive. The game places both players' top edge at screen height - 100 (game.py:27-33), which may differ from that line.
- `find_safe_zone` would take `min` of no lanes when the player is at least as wide as the arena. `Config.Valid` requires a player narrower than the arena, so this cannot happen.
- The learned policy (`model.predict`), model loading (`load_trained_model`), training (`train_ai.py`), the gymnasium spaces and metadata, and the `time()`-based debug print. They are a foreign decision source, file I/O and logging.
- `main.py` is not part of this model: it only parses a flag and wires the session together.
- Unused state: the computer player's `threat_map` and the environment's `last_dodge_reward` are never read.
- Colours and player names are presentation and are not part of the player record. Winners are a two-valued datatype in place of the code's name strings.
- The `seed` argument of the environment's `reset` is not modelled: it only seeds the random source, which the model replaces with explicit draws.

=== FILE: ai_player.dfy ===
/** The heuristic computer player: it ranks the objects that will hit it, scores
    50-unit lanes of the arena by danger, and on a cooldown picks a target x that it
    then approaches by damped steps. */
module Heuristic {
  import opened Wrappers
  import opened GameConfig
  import opened Sequences
  import opened FallingObjects
  import opened Players

  /** Width of one candidate lane of the safe-zone search. */
  const ZoneWidth: int := 50
  /** How many ticks ahead the safe-zone search projects an object. */
  const ZoneLookahead: real := 60.0
  /** Ticks without a new decision after a threat-driven one. */
  const DecisionCooldown: nat := 5
  /** Distance from the centre position beyond which an idle player re-centres. */
  const RecenterSlack: real := 100.0
  /** Centre distance below which the player does not move. */
  const Deadband: real := 5.0
  /** Fraction of the full speed used for each steering step. */
  const Damping: real := 0.8

  /** One ranked threat; `timeToImpact` is None where the code computes infinity. */
  datatype Threat = Threat(obj: FallingObject, level: real, timeToImpact: Option<real>, objCenterX: int)

  /** The player plus the decision engine's state: the x it steers to and the ticks
      left before it may decide again. */
  datatype AIPlayer = AIPlayer(body: Player, targetX: real, cooldown: nat)

  function NewAIPlayer(cfg: Config, x: real, y: real): (a: AIPlayer)
    ensures Conforms(cfg, a.body) && a.body.alive && a.body.x == x && a.body.y == y
    ensures a.targetX == x && a.cooldown == 0
  {
    AIPlayer(NewPlayer(cfg, x, y), x, 0)
  }

  // ----- Threat analysis -----

  /** Ticks until the object's top reaches the player's top; infinite for an object
      that does not fall. */
  function TimeToImpact(cfg: Config, p: Player, o: FallingObject): Option<real> {
    if o.speed > 0.0 then Some((cfg.screenHeight as real - o.y - p.height as real) / o.speed) else None
  }

  /** 1/(t+1); an infinite time gives 1/infinity, which is 0. */
  function ThreatLevel(t: Option<real>): (r: real)
    requires t.Some? ==> t.value >= 0.0
    ensures 0.0 <= r <= 1.0
    ensures r == 0.0 <==> t.None?
  {
    match t
    case None => 0.0
    case Some(v) => 1.0 / (v + 1.0)
  }

  /** Sooner impacts are more threatening. */
  lemma ThreatLevelSoonerIsHigher(a: real, b: real)
    requires 0.0 <= a <= b
    ensures ThreatLevel(Some(a)) >= ThreatLevel(Some(b))
    ensures a < b ==> ThreatLevel(Some(a)) > ThreatLevel(Some(b))
  {
    var x, y := 1.0 / (a + 1.0), 1.0 / (b + 1.0);
    assert x * (a + 1.0) == 1.0 && y * (b + 1.0) == 1.0;
    assert y > 0.0;
    assert y * (a + 1.0) <= y * (b + 1.0);
    assert a < b ==> y * (a + 1.0) < y * (b + 1.0);
    assert y * (a + 1.0) <= x * (a + 1.0);
  }

  /** The look-ahead test: after `aiPredictionLookahead` ticks the object's vertical
      span meets the player's, and the centres are closer than the half-widths summed. */
  predicate WillCollide(cfg: Config, p: Player, o: FallingObject) {
    var futureY := o.y + o.speed * cfg.aiPredictionLookahead;
    && futureY + o.size as real >= p.y
    && futureY <= p.y + p.height as real
    && Abs(PlayerCenter(p) - ObjectCenter(o) as real) < (p.width / 2 + o.size / 2) as real
  }

  /** Objects still above the reaction line that will collide are threats. */
  predicate IsThreat(cfg: Config, p: Player, o: FallingObject) {
    o.y < cfg.aiReactionDistance && WillCollide(cfg, p, o)
  }

  function MakeThreat(cfg: Config, p: Player, o: FallingObject): (t: Threat)
    requires cfg.Valid() && p.height == cfg.playerHeight && o.y < cfg.aiReactionDistance
    ensures t.obj == o && t.objCenterX == ObjectCenter(o)
    ensures o.speed <= 0.0 ==> t.timeToImpact.None? && t.level == 0.0
    ensures o.speed > 0.0 ==> t.timeToImpact.Some? && t.timeToImpact.value > 0.0 && 0.0 < t.level < 1.0
    ensures o.speed > 0.0 ==>
              t.timeToImpact.value * o.speed == cfg.screenHeight as real - o.y - p.height as real
    ensures t.level == ThreatLevel(t.timeToImpact)
  {
    var tti := TimeToImpact(cfg, p, o);
    assert o.speed > 0.0 ==> tti.value > 0.0 by {
      if o.speed > 0.0 {
        var distance := cfg.screenHeight as real - o.y - p.height as real;
        assert distance > 0.0;
        assert tti.value * o.speed == distance;
      }
    }
    Threat(o, ThreatLevel(tti), tti, ObjectCenter(o))
  }

  /** The threats in the order of the objects they come from. */
  function Candidates(cfg: Config, p: Player, objs: seq<FallingObject>): (r: seq<Threat>)
    requires cfg.Valid() && p.height == cfg.playerHeight
    ensures forall t :: t in r ==> exists o :: o in objs && IsThreat(cfg, p, o) && t == MakeThreat(cfg, p, o)
    ensures forall o :: o in objs && IsThreat(cfg, p, o) ==> MakeThreat(cfg, p, o) in r
  {
    if objs == [] then []
    else
      (if IsThreat(cfg, p, objs[0]) then [MakeThreat(cfg, p, objs[0])] else [])
      + Candidates(cfg, p, objs[1..])
  }

  /** Sort key that puts the highest threat level first. */
  function Urgency(t: Threat): real {
    -t.level
  }

  /** `analyze_threats`: every threat, most threatening first. */
  function AnalyzeThreats(cfg: Config, p: Player, objs: seq<FallingObject>): (r: seq<Threat>)
    requires cfg.Valid() && p.height == cfg.playerHeight
    ensures forall i, j :: 0 <= i < j < |r| ==> r[i].level >= r[j].level
    ensures multiset(r) == multiset(Candidates(cfg, p, objs))
    ensures forall t :: t in r ==> exists o :: o in objs && IsThreat(cfg, p, o) && t == MakeThreat(cfg, p, o)
    ensures forall o :: o in objs && IsThreat(cfg, p, o) ==> MakeThreat(cfg, p, o) in r
    ensures forall t :: t in r ==> 0.0 <= t.level <= 1.0 && (t.obj.speed > 0.0 ==> t.level > 0.0)
    ensures |r| > 0 <==> exists o :: o in objs && IsThreat(cfg, p, o)
    ensures forall v :: WithKey(r, Urgency, v) == WithKey(Candidates(cfg, p, objs), Urgency, v)
  {
    var cands := Candidates(cfg, p, objs);
    var r := SortBy(cands, Urgency);
    SortByStableEverywhere(cands, Urgency);
    assert forall i, j :: 0 <= i < j < |r| ==> Urgency(r[i]) <= Urgency(r[j]);
    assert forall t :: t in r <==> t in multiset(cands);
    assert forall t :: t in r ==> t in cands;
    r
  }

  /** The ranking puts the soonest impact first: a threat with a finite impact time is
      preceded only by threats whose impact is finite and no later. */
  lemma AnalyzeThreatsSoonerFirst(cfg: Config, p: Player, objs: seq<FallingObject>)
    requires cfg.Valid() && p.height == cfg.playerHeight
    ensures var r := AnalyzeThreats(cfg, p, objs);
            forall i, j :: 0 <= i < j < |r| && r[j].timeToImpact.Some? ==>
              r[i].timeToImpact.Some? && r[i].timeToImpact.value <= r[j].timeToImpact.value
  {
    var r := AnalyzeThreats(cfg, p, objs);
    forall i, j | 0 <= i < j < |r| && r[j].timeToImpact.Some?
      ensures r[i].timeToImpact.Some? && r[i].timeToImpact.value <= r[j].timeToImpact.value
    {
      assert r[i] in r && r[j] in r;
      var oi :| oi in objs && IsThreat(cfg, p, oi) && r[i] == MakeThreat(cfg, p, oi);
      var oj :| oj in objs && IsThreat(cfg, p, oj) && r[j] == MakeThreat(cfg, p, oj);
      HigherLevelIsSooner(r[i], r[j]);
    }
  }

  /** Between two threats whose levels come from their impact times, the higher level
      belongs to the sooner impact, and a positive level to a finite one. */
  lemma HigherLevelIsSooner(a: Threat, b: Threat)
    requires a.timeToImpact.Some? ==> a.timeToImpact.value >= 0.0
    requires b.timeToImpact.Some? && b.timeToImpact.value >= 0.0
    requires a.level == ThreatLevel(a.timeToImpact) && b.level == ThreatLevel(b.timeToImpact)
    requires a.level >= b.level
    ensures a.timeToImpact.Some? && a.timeToImpact.value <= b.timeToImpact.value
  {
    assert a.level > 0.0;
    var ta, tb := a.timeToImpact.value, b.timeToImpact.value;
    if ta > tb {
      ThreatLevelSoonerIsHigher(tb, ta);
      assert false;
    }
  }

  /** Candidates keep the order of the objects they come from. */
  lemma {:induction false} CandidatesAppend(cfg: Config, p: Player, a: seq<FallingObject>, b: seq<FallingObject>)
    requires cfg.Valid() && p.height == cfg.playerHeight
    ensures Candidates(cfg, p, a + b) == Candidates(cfg, p, a) + Candidates(cfg, p, b)
  {
    if a == [] {
      assert a + b == b;
    } else {
      assert (a + b)[0] == a[0];
      assert (a + b)[1..] == a[1..] + b;
      CandidatesAppend(cfg, p, a[1..], b);
    }
  }

  // ----- Safe-zone search -----

  /** An object in the upper half of the arena that will be past the player's top
      edge after `ZoneLookahead` ticks. */
  predicate Endangers(cfg: Config, p: Player, o: FallingObject) {
    o.y < (cfg.screenHeight / 2) as real && o.y + o.speed * ZoneLookahead > p.y
  }

  /** Horizontal distance between the centre of the lane at `laneX` and an object's centre. */
  function LaneDistance(p: Player, laneX: int, o: FallingObject): nat {
    IntAbs(laneX + p.width / 2 - ObjectCenter(o))
  }

  /** One object's danger for one lane: 100/(d+1) within reach, nothing beyond. */
  function Contribution(cfg: Config, p: Player, laneX: int, o: FallingObject): (r: real)
    ensures 0.0 <= r <= 100.0
    ensures r > 0.0 <==> Endangers(cfg, p, o) && LaneDistance(p, laneX, o) < o.size + p.width
  {
    var distance := LaneDistance(p, laneX, o);
    if Endangers(cfg, p, o) && distance < o.size + p.width then 100.0 / (distance + 1) as real else 0.0
  }

  /** A contributing object adds 100 divided by one more than its distance to the lane. */
  lemma ContributionValue(cfg: Config, p: Player, laneX: int, o: FallingObject)
    ensures var r := Contribution(cfg, p, laneX, o);
            r > 0.0 ==> r * (LaneDistance(p, laneX, o) + 1) as real == 100.0
  {
  }

  /** A lane's danger score: the sum of every object's contribution. */
  function LaneDanger(cfg: Config, p: Player, laneX: int, objs: seq<FallingObject>): (r: real)
    ensures r >= 0.0
    ensures (forall o :: o in objs ==> !Endangers(cfg, p, o)) ==> r == 0.0
    decreases |objs|
  {
    if objs == [] then 0.0
    else Contribution(cfg, p, laneX, objs[0]) + LaneDanger(cfg, p, laneX, objs[1..])
  }

  /** The danger score is the sum of the contributions. */
  lemma {:induction false} LaneDangerIsSum(cfg: Config, p: Player, laneX: int, objs: seq<FallingObject>)
    ensures LaneDanger(cfg, p, laneX, objs) == SumOf(objs, o => Contribution(cfg, p, laneX, o))
    decreases |objs|
  {
    if objs != [] {
      LaneDangerIsSum(cfg, p, laneX, objs[1..]);
    }
  }

  /** A lane is dangerous exactly when some object endangering the player is within
      the lane's reach. */
  lemma LaneDangerPositiveIff(cfg: Config, p: Player, laneX: int, objs: seq<FallingObject>)
    ensures LaneDanger(cfg, p, laneX, objs) > 0.0 <==>
              exists o :: o in objs && Endangers(cfg, p, o) && LaneDistance(p, laneX, o) < o.size + p.width
  {
    var f := o => Contribution(cfg, p, laneX, o);
    LaneDangerIsSum(cfg, p, laneX, objs);
    SumOfPositive(objs, f);
    assert (exists i :: 0 <= i < |objs| && f(objs[i]) > 0.0) <==> (exists o :: o in objs && f(o) > 0.0);
  }

  /** Of two objects within a lane's reach, the nearer one adds more danger. */
  lemma NearerObjectWeighsMore(cfg: Config, p: Player, laneX: int, near: FallingObject, far: FallingObject)
    requires Contribution(cfg, p, laneX, near) > 0.0 && Contribution(cfg, p, laneX, far) > 0.0
    requires LaneDistance(p, laneX, near) < LaneDistance(p, laneX, far)
    ensures Contribution(cfg, p, laneX, near) > Contribution(cfg, p, laneX, far)
  {
    var x, y := Contribution(cfg, p, laneX, near), Contribution(cfg, p, laneX, far);
    var dn, df := (LaneDistance(p, laneX, near) + 1) as real, (LaneDistance(p, laneX, far) + 1) as real;
    ContributionValue(cfg, p, laneX, near);
    ContributionValue(cfg, p, laneX, far);
    ShareShrinks(x, y, dn, df);
  }

  /** If x·a and y·b are the same positive amount and a < b, then x > y. */
  lemma ShareShrinks(x: real, y: real, a: real, b: real)
    requires 0.0 < a < b && 0.0 < y && x * a == y * b
    ensures x > y
  {
    assert y * a < y * b;
    assert x <= y ==> x * a <= y * a;
  }

  /** `range(0, screen width - width, 50)` has this many elements. */
  function LaneCount(cfg: Config, p: Player): nat
    requires p.width < cfg.screenWidth
  {
    (cfg.screenWidth - p.width + ZoneWidth - 1) / ZoneWidth
  }

  /** The lanes are exactly the multiples of 50 below screen width - width. */
  lemma LanesAreMultiples(cfg: Config, p: Player)
    requires p.width < cfg.screenWidth
    ensures LaneCount(cfg, p) > 0
    ensures forall k :: 0 <= k < LaneCount(cfg, p) ==> ZoneWidth * k < cfg.screenWidth - p.width
    ensures forall z :: 0 <= z < cfg.screenWidth - p.width && z % ZoneWidth == 0 ==>
              z / ZoneWidth < LaneCount(cfg, p) && z == ZoneWidth * (z / ZoneWidth)
  {
  }

  function Scores(cfg: Config, p: Player, objs: seq<FallingObject>): (s: seq<real>)
    requires p.width < cfg.screenWidth
    ensures |s| == LaneCount(cfg, p)
    ensures forall k :: 0 <= k < |s| ==> s[k] == LaneDanger(cfg, p, ZoneWidth * k, objs)
  {
    seq(LaneCount(cfg, p), k => LaneDanger(cfg, p, ZoneWidth * k, objs))
  }

  /** Lane `k` starts at a multiple of the lane width. */
  lemma LaneOffset(k: nat)
    ensures (ZoneWidth * k) % ZoneWidth == 0 && (ZoneWidth * k) / ZoneWidth == k
  {
  }

  /** The lane `min` picks is no more dangerous than any other lane. */
  lemma LeftmostLaneIsMinimal(cfg: Config, p: Player, objs: seq<FallingObject>)
    requires p.width < cfg.screenWidth
    ensures var best := LaneDanger(cfg, p, ZoneWidth * LeftmostMin(Scores(cfg, p, objs)), objs);
            forall z :: 0 <= z < cfg.screenWidth - p.width && z % ZoneWidth == 0 ==>
              best <= LaneDanger(cfg, p, z, objs)
  {
    LanesAreMultiples(cfg, p);
    var scores := Scores(cfg, p, objs);
    var k := LeftmostMin(scores);
    var best := LaneDanger(cfg, p, ZoneWidth * k, objs);
    assert best == scores[k];
    forall z | 0 <= z < cfg.screenWidth - p.width && z % ZoneWidth == 0
      ensures best <= LaneDanger(cfg, p, z, objs)
    {
      var j := z / ZoneWidth;
      assert scores[j] == LaneDanger(cfg, p, z, objs);
    }
  }

  /** Every lane left of the one `min` picks is strictly more dangerous. */
  lemma LeftmostLaneIsFirst(cfg: Config, p: Player, objs: seq<FallingObject>)
    requires p.width < cfg.screenWidth
    ensures var x := ZoneWidth * LeftmostMin(Scores(cfg, p, objs));
            forall z :: 0 <= z < x && z % ZoneWidth == 0 ==>
              LaneDanger(cfg, p, z, objs) > LaneDanger(cfg, p, x, objs)
  {
    LanesAreMultiples(cfg, p);
    var scores := Scores(cfg, p, objs);
    var k := LeftmostMin(scores);
    var best := LaneDanger(cfg, p, ZoneWidth * k, objs);
    assert best == scores[k];
    forall z | 0 <= z < ZoneWidth * k && z % ZoneWidth == 0
      ensures LaneDanger(cfg, p, z, objs) > best
    {
      var j := z / ZoneWidth;
      assert j < k;
      assert scores[j] == LaneDanger(cfg, p, z, objs);
    }
  }

  /** `find_safe_zone`: the leftmost lane whose danger score is minimal. */
  function FindSafeZone(cfg: Config, p: Player, objs: seq<FallingObject>): (x: int)
    requires p.width < cfg.screenWidth
    ensures 0 <= x < cfg.screenWidth - p.width && x % ZoneWidth == 0
    ensures forall z :: 0 <= z < cfg.screenWidth - p.width && z % ZoneWidth == 0 ==>
              LaneDanger(cfg, p, x, objs) <= LaneDanger(cfg, p, z, objs)
    ensures forall z :: 0 <= z < x && z % ZoneWidth == 0 ==>
              LaneDanger(cfg, p, z, objs) > LaneDanger(cfg, p, x, objs)
  {
    LanesAreMultiples(cfg, p);
    var k := LeftmostMin(Scores(cfg, p, objs));
    LaneOffset(k);
    LeftmostLaneIsMinimal(cfg, p, objs);
    LeftmostLaneIsFirst(cfg, p, objs);
    ZoneWidth * k
  }

  /** A lane's danger score does not depend on the order of the objects. */
  lemma LaneDangerIgnoresOrder(cfg: Config, p: Player, laneX: int, a: seq<FallingObject>, b: seq<FallingObject>)
    requires multiset(a) == multiset(b)
    ensures LaneDanger(cfg, p, laneX, a) == LaneDanger(cfg, p, laneX, b)
  {
    LaneDangerIsSum(cfg, p, laneX, a);
    LaneDangerIsSum(cfg, p, laneX, b);
    SumOfPermutation(a, b, o => Contribution(cfg, p, laneX, o));
  }

  /** The search aggregates, so the order of the objects does not change the lane chosen. */
  lemma FindSafeZoneIgnoresOrder(cfg: Config, p: Player, a: seq<FallingObject>, b: seq<FallingObject>)
    requires p.width < cfg.screenWidth && multiset(a) == multiset(b)
    ensures FindSafeZone(cfg, p, a) == FindSafeZone(cfg, p, b)
  {
    forall k | 0 <= k < LaneCount(cfg, p)
      ensures LaneDanger(cfg, p, ZoneWidth * k, a) == LaneDanger(cfg, p, ZoneWidth * k, b)
    {
      LaneDangerIgnoresOrder(cfg, p, ZoneWidth * k, a, b);
    }
    assert Scores(cfg, p, a) == Scores(cfg, p, b);
  }

  /** With nothing endangering any lane every score is 0 and the leftmost lane wins. */
  lemma FindSafeZoneWithoutDanger(cfg: Config, p: Player, objs: seq<FallingObject>)
    requires p.width < cfg.screenWidth
    requires forall o :: o in objs ==> !Endangers(cfg, p, o)
    ensures FindSafeZone(cfg, p, objs) == 0
  {
    var x := FindSafeZone(cfg, p, objs);
    assert LaneDanger(cfg, p, 0, objs) == 0.0 && LaneDanger(cfg, p, x, objs) == 0.0;
  }

  // ----- Decision engine -----

  /** The x that centres the player in the arena. */
  function CenterTarget(cfg: Config, p: Player): real {
    (cfg.screenWidth / 2 - p.width / 2) as real
  }

  predicate ThreatPresent(cfg: Config, p: Player, objs: seq<FallingObject>) {
    exists o :: o in objs && IsThreat(cfg, p, o)
  }

  /** `decide_action`: count the cooldown down, or re-target to the safe zone when
      threatened, or drift back to the centre when far from it. */
  function DecideAction(cfg: Config, a: AIPlayer, objs: seq<FallingObject>): (r: AIPlayer)
    requires cfg.Valid() && Conforms(cfg, a.body)
    ensures r.body == a.body
    ensures a.cooldown > 0 ==> r.targetX == a.targetX && r.cooldown == a.cooldown - 1
    ensures a.cooldown == 0 && ThreatPresent(cfg, a.body, objs) ==>
              && r.targetX == FindSafeZone(cfg, a.body, objs) as real
              && r.cooldown == DecisionCooldown
              && 0.0 <= r.targetX < cfg.RightLimit(a.body.width)
    ensures a.cooldown == 0 && !ThreatPresent(cfg, a.body, objs) ==>
              && r.cooldown == 0
              && (Abs(a.body.x - CenterTarget(cfg, a.body)) > RecenterSlack ==> r.targetX == CenterTarget(cfg, a.body))
              && (Abs(a.body.x - CenterTarget(cfg, a.body)) <= RecenterSlack ==> r.targetX == a.targetX)
  {
    if a.cooldown > 0 then
      a.(cooldown := a.cooldown - 1)
    else
      var threats := AnalyzeThreats(cfg, a.body, objs);
      if |threats| > 0 then
        // The code distinguishes a threat to the left, to the right and overhead,
        // but all three branches take the same safe zone.
        a.(targetX := FindSafeZone(cfg, a.body, objs) as real, cooldown := DecisionCooldown)
      else
        var center := CenterTarget(cfg, a.body);
        if Abs(a.body.x - center) > RecenterSlack then a.(targetX := center) else a
  }

  /** Decisions over several ticks, one object snapshot per tick. */
  function DecideEach(cfg: Config, a: AIPlayer, snapshots: seq<seq<FallingObject>>): AIPlayer
    requires cfg.Valid() && Conforms(cfg, a.body)
    decreases |snapshots|
  {
    if snapshots == [] then a
    else DecideEach(cfg, DecideAction(cfg, a, snapshots[0]), snapshots[1..])
  }

  /** While the cooldown runs, no snapshot whatever changes the target. */
  lemma {:induction false} CooldownHoldsTarget(cfg: Config, a: AIPlayer, snapshots: seq<seq<FallingObject>>)
    requires cfg.Valid() && Conforms(cfg, a.body)
    requires |snapshots| <= a.cooldown
    ensures DecideEach(cfg, a, snapshots) == a.(cooldown := a.cooldown - |snapshots|)
    decreases |snapshots|
  {
    if snapshots != [] {
      CooldownHoldsTarget(cfg, DecideAction(cfg, a, snapshots[0]), snapshots[1..]);
    }
  }

  /** A threat-driven target is kept for exactly the next `DecisionCooldown` ticks,
      after which the engine decides afresh. */
  lemma ThreatTargetHeld(cfg: Config, a: AIPlayer, objs: seq<FallingObject>, later: seq<seq<FallingObject>>)
    requires cfg.Valid() && Conforms(cfg, a.body)
    requires a.cooldown == 0 && ThreatPresent(cfg, a.body, objs)
    requires |later| <= DecisionCooldown
    ensures DecideEach(cfg, DecideAction(cfg, a, objs), later).targetX == FindSafeZone(cfg, a.body, objs) as real
    ensures |later| == DecisionCooldown ==> DecideEach(cfg, DecideAction(cfg, a, objs), later).cooldown == 0
  {
    CooldownHoldsTarget(cfg, DecideAction(cfg, a, objs), later);
  }

  /** The movement half of `update`: a damped step towards the target, unless the
      centres are within the deadband. */
  function Steer(cfg: Config, a: AIPlayer): (r: AIPlayer)
    ensures r.targetX == a.targetX && r.cooldown == a.cooldown
    ensures Abs(a.body.x - a.targetX) <= Deadband ==> r.body == a.body
    ensures Abs(a.body.x - a.targetX) > Deadband && a.targetX > a.body.x ==> r.body == Move(cfg, a.body, Damping)
    ensures Abs(a.body.x - a.targetX) > Deadband && a.targetX < a.body.x ==> r.body == Move(cfg, a.body, -Damping)
  {
    var playerCenter := PlayerCenter(a.body);
    var targetCenter := a.targetX + (a.body.width / 2) as real;
    if Abs(playerCenter - targetCenter) > Deadband then
      var direction := if targetCenter > playerCenter then 1.0 else -1.0;
      a.(body := Move(cfg, a.body, direction * Damping))
    else
      a
  }

  /** Steering towards a target inside the arena closes the distance by one damped
      step, or overshoots by less than one step. */
  lemma SteerApproachesTarget(cfg: Config, a: AIPlayer)
    requires a.body.width <= cfg.screenWidth && a.body.speed > 0.0
    requires InBounds(cfg, a.body) && 0.0 <= a.targetX <= cfg.RightLimit(a.body.width)
    requires Abs(a.body.x - a.targetX) > Deadband
    ensures var step := Damping * a.body.speed;
            var before := Abs(a.body.x - a.targetX);
            var after := Abs(Steer(cfg, a).body.x - a.targetX);
            && (step <= before ==> after == before - step)
            && (step > before ==> after < step)
            && (step < 2.0 * before ==> after < before)
            && (a.targetX > a.body.x ==> Steer(cfg, a).body.x > a.body.x)
            && (a.targetX < a.body.x ==> Steer(cfg, a).body.x < a.body.x)
  {
  }

  /** `AIPlayer.update`: decide, then take a damped step towards the target just decided. */
  function Update(cfg: Config, a: AIPlayer, objs: seq<FallingObject>): (r: AIPlayer)
    requires cfg.Valid() && Conforms(cfg, a.body)
    ensures Conforms(cfg, r.body) && r.body == a.body.(x := r.body.x)
    ensures InBounds(cfg, a.body) ==> InBounds(cfg, r.body)
    ensures a.cooldown > 0 ==> r.targetX == a.targetX && r.cooldown == a.cooldown - 1
    ensures a.cooldown == 0 && ThreatPresent(cfg, a.body, objs) ==>
              r.targetX == FindSafeZone(cfg, a.body, objs) as real && r.cooldown == DecisionCooldown
    ensures var d := DecideAction(cfg, a, objs);
            && r.targetX == d.targetX && r.cooldown == d.cooldown
            && (Abs(a.body.x - d.targetX) <= Deadband ==> r.body == a.body)
            && (Abs(a.body.x - d.targetX) > Deadband && d.targetX > a.body.x ==> r.body == Move(cfg, a.body, Damping))
            && (Abs(a.body.x - d.targetX) > Deadband && d.targetX < a.body.x ==> r.body == Move(cfg, a.body, -Damping))
  {
    Steer(cfg, DecideAction(cfg, a, objs))
  }
}

=== FILE: falling_object.dfy ===
/** Falling objects: spawn from random draws, fall straight down by their own speed
    every tick, and are off-screen once their top edge is below the arena. */
module FallingObjects {
  import opened GameConfig

  /** A square object; `x` and `size` are integers (random.randint), `y` and `speed` real. */
  datatype FallingObject = FallingObject(x: int, y: real, size: int, speed: real)

  /** The three random values a spawn consumes, in the order the constructor draws them. */
  datatype Draw = Draw(size: int, x: int, speed: real)

  /** The ranges random.randint / random.uniform draw from: the size first, then an x
      that keeps the whole object inside the arena, then a speed. */
  predicate InRange(cfg: Config, d: Draw) {
    && cfg.objectMinSize <= d.size <= cfg.objectMaxSize
    && 0 <= d.x <= cfg.screenWidth - d.size
    && cfg.objectMinSpeed <= d.speed <= cfg.objectMaxSpeed
  }

  predicate IsOffScreen(cfg: Config, o: FallingObject) {
    o.y > cfg.screenHeight as real
  }

  function ObjectRect(o: FallingObject): Rect {
    Rect(o.x as real, o.y, o.size as real, o.size as real)
  }

  /** Horizontal centre, with the integer halving the code uses. */
  function ObjectCenter(o: FallingObject): int {
    o.x + o.size / 2
  }

  /** A new object starts just above the top edge, so it is never off-screen. */
  function Spawn(cfg: Config, d: Draw): (o: FallingObject)
    requires cfg.Valid() && InRange(cfg, d)
    ensures cfg.objectMinSize <= o.size <= cfg.objectMaxSize
    ensures 0 <= o.x && o.x + o.size <= cfg.screenWidth
    ensures cfg.objectMinSpeed <= o.speed <= cfg.objectMaxSpeed
    ensures o.y < 0.0 && o.y + o.size as real == 0.0
    ensures !IsOffScreen(cfg, o)
  {
    FallingObject(d.x, -(d.size as real), d.size, d.speed)
  }

  /** One tick of falling. */
  function Advance(o: FallingObject): (r: FallingObject)
    ensures r.x == o.x && r.size == o.size && r.speed == o.speed
    ensures r.y - o.y == o.speed
  {
    o.(y := o.y + o.speed)
  }

  /** `n` ticks of falling. */
  function AdvanceN(o: FallingObject, n: nat): FallingObject {
    if n == 0 then o else Advance(AdvanceN(o, n - 1))
  }

  lemma {:induction false} AdvanceNPosition(o: FallingObject, n: nat)
    ensures AdvanceN(o, n) == o.(y := o.y + (n as real) * o.speed)
  {
    if n > 0 {
      AdvanceNPosition(o, n - 1);
      assert (n as real) * o.speed == ((n - 1) as real) * o.speed + o.speed;
    }
  }

  /** An object that does not rise stays off-screen once it is. */
  lemma OffScreenStaysOffScreen(cfg: Config, o: FallingObject, n: nat)
    requires o.speed >= 0.0 && IsOffScreen(cfg, o)
    ensures IsOffScreen(cfg, AdvanceN(o, n))
  {
    AdvanceNPosition(o, n);
    assert (n as real) * o.speed >= 0.0;
  }

  /** An object that falls at positive speed leaves the arena after finitely many ticks. */
  lemma EventuallyOffScreen(cfg: Config, o: FallingObject) returns (n: nat)
    requires o.speed > 0.0
    ensures IsOffScreen(cfg, AdvanceN(o, n))
  {
    var gap := cfg.screenHeight as real - o.y;
    if gap < 0.0 {
      n := 0;
    } else {
      var q := gap / o.speed;
      n := q.Floor + 1;
      assert (n as real) > q;
      assert (n as real) * o.speed > q * o.speed;
      assert q * o.speed == gap;
      AdvanceNPosition(o, n);
    }
  }

  /** Every object of the list after one tick of falling, in the same order. */
  function AdvanceAll(objs: seq<FallingObject>): (r: seq<FallingObject>)
    ensures |r| == |objs|
    ensures forall i :: 0 <= i < |objs| ==> r[i] == Advance(objs[i])
  {
    if objs == [] then [] else [Advance(objs[0])] + AdvanceAll(objs[1..])
  }

  /** The list comprehension that drops off-screen objects. */
  function Prune(cfg: Config, objs: seq<FallingObject>): (r: seq<FallingObject>)
    ensures |r| <= |objs|
    ensures forall o :: o in r <==> o in objs && !IsOffScreen(cfg, o)
  {
    if objs == [] then []
    else (if IsOffScreen(cfg, objs[0]) then [] else [objs[0]]) + Prune(cfg, objs[1..])
  }

  /** Pruning works element by element, so it keeps the survivors' relative order. */
  lemma {:induction false} PruneAppend(cfg: Config, a: seq<FallingObject>, b: seq<FallingObject>)
    ensures Prune(cfg, a + b) == Prune(cfg, a) + Prune(cfg, b)
  {
    if a == [] {
      assert a + b == b;
    } else {
      assert (a + b)[0] == a[0];
      assert (a + b)[1..] == a[1..] + b;
      PruneAppend(cfg, a[1..], b);
    }
  }
}

=== FILE: game.dfy ===
/** The two-player session: menu / playing / game-over phases, the per-tick update
    (spawn, move both players, fall, prune, collide) and the key handling. */
module Game {
  import opened Wrappers
  import opened GameConfig
  import opened FallingObjects
  import opened Players
  import Heuristic
  import TrainedAI

  datatype Phase = Menu | Playing | GameOver

  /** The code records the winner's name: "AI Player" or "Manual Player". */
  datatype Winner = AIPlayerWon | ManualPlayerWon

  /** The computer-controlled player, heuristic or learned, chosen when the session starts. */
  datatype Opponent = HeuristicAI(ai: Heuristic.AIPlayer) | LearnedAI(bot: TrainedAI.TrainedPlayer)
  {
    function Body(): Player {
      match this
      case HeuristicAI(a) => a.body
      case LearnedAI(b) => b.body
    }

    function WithBody(p: Player): (r: Opponent)
      ensures r.Body() == p && r.HeuristicAI? == HeuristicAI?
    {
      match this
      case HeuristicAI(a) => HeuristicAI(a.(body := p))
      case LearnedAI(b) => LearnedAI(b.(body := p))
    }
  }

  datatype Key = Escape | Space | OtherKey
  datatype Event = Quit | KeyDown(key: Key) | OtherEvent

  /** What one tick consumes from outside: the arrow keys held and the random draws
      for an object that may spawn. */
  datatype TickInput = TickInput(left: bool, right: bool, draw: Draw)

  datatype GameState = GameState(
    phase: Phase,
    useTrainedAI: bool,
    hasModel: bool,
    manual: Player,
    opponent: Opponent,
    objects: seq<FallingObject>,
    frameCount: nat,
    winner: Option<Winner>)

  /** Both players have the configured size and speed. */
  predicate WellFormed(cfg: Config, g: GameState) {
    Conforms(cfg, g.manual) && Conforms(cfg, g.opponent.Body())
  }

  /** `reset_game`: fresh players at their start positions, no objects, no winner. */
  function Reset(cfg: Config, g: GameState): (r: GameState)
    ensures WellFormed(cfg, r)
    ensures r.phase == g.phase && r.useTrainedAI == g.useTrainedAI && r.hasModel == g.hasModel
    ensures r.objects == [] && r.frameCount == 0 && r.winner == None
    ensures r.manual.alive && r.opponent.Body().alive
    ensures r.manual.x == 100.0 && r.manual.y == (cfg.screenHeight - 100) as real
    ensures r.opponent.Body().x == (cfg.screenWidth - 150) as real
    ensures r.opponent.Body().y == (cfg.screenHeight - 100) as real
    ensures r.opponent.LearnedAI? <==> g.useTrainedAI
    ensures r.opponent.LearnedAI? ==> r.opponent.bot.hasModel == g.hasModel && r.opponent.bot.lastAction == 0
    ensures r.opponent.HeuristicAI? ==> r.opponent.ai.targetX == r.opponent.ai.body.x && r.opponent.ai.cooldown == 0
  {
    var y := (cfg.screenHeight - 100) as real;
    var aiX := (cfg.screenWidth - 150) as real;
    var opponent :=
      if g.useTrainedAI then LearnedAI(TrainedAI.NewTrainedPlayer(cfg, aiX, y, g.hasModel))
      else HeuristicAI(Heuristic.NewAIPlayer(cfg, aiX, y));
    g.(manual := NewPlayer(cfg, 100.0, y), opponent := opponent,
       objects := [], frameCount := 0, winner := None)
  }

  /** A new session starts at the menu, in the state `reset_game` leaves. */
  function NewGame(cfg: Config, useTrainedAI: bool, hasModel: bool): (g: GameState)
    ensures g.phase == Menu && WellFormed(cfg, g)
    ensures g.useTrainedAI == useTrainedAI && g.hasModel == hasModel
    ensures g.objects == [] && g.frameCount == 0 && g.winner == None
    ensures g.manual.alive && g.opponent.Body().alive
    ensures g.manual.x == 100.0 && g.manual.y == (cfg.screenHeight - 100) as real
    ensures g.opponent.Body().x == (cfg.screenWidth - 150) as real
    ensures g.opponent.Body().y == (cfg.screenHeight - 100) as real
    ensures g.opponent.LearnedAI? <==> useTrainedAI
    ensures g.opponent.LearnedAI? ==> g.opponent.bot.hasModel == hasModel && g.opponent.bot.lastAction == 0
    ensures g.opponent.HeuristicAI? ==> g.opponent.ai.targetX == g.opponent.ai.body.x && g.opponent.ai.cooldown == 0
  {
    var blank := NewPlayer(cfg, 0.0, 0.0);
    Reset(cfg, GameState(Menu, useTrainedAI, hasModel, blank, HeuristicAI(Heuristic.NewAIPlayer(cfg, 0.0, 0.0)), [], 0, None))
  }

  /** `spawn_object`: one new object on every multiple of the spawn interval. */
  function SpawnObject(cfg: Config, g: GameState, d: Draw): (r: GameState)
    requires cfg.Valid() && InRange(cfg, d)
    ensures r == g.(objects := r.objects)
    ensures g.frameCount % cfg.objectSpawnRate == 0 <==> |r.objects| == |g.objects| + 1
    ensures g.frameCount % cfg.objectSpawnRate == 0 ==> r.objects == g.objects + [Spawn(cfg, d)]
    ensures g.frameCount % cfg.objectSpawnRate != 0 ==> r == g
  {
    if g.frameCount % cfg.objectSpawnRate == 0 then g.(objects := g.objects + [Spawn(cfg, d)]) else g
  }

  predicate Hit(p: Player, o: FallingObject) {
    Overlaps(PlayerRect(p), ObjectRect(o))
  }

  /** Both checks of `check_collisions` for one object: the manual player first, then
      the computer player. */
  function CollideOne(g: GameState, o: FallingObject): GameState {
    var g1 :=
      if g.manual.alive && Hit(g.manual, o) then
        g.(manual := g.manual.(alive := false), winner := Some(AIPlayerWon), phase := GameOver)
      else g;
    var ai := g1.opponent.Body();
    if ai.alive && Hit(ai, o) then
      g1.(opponent := g1.opponent.WithBody(ai.(alive := false)), winner := Some(ManualPlayerWon), phase := GameOver)
    else g1
  }

  function CollideAll(g: GameState, objs: seq<FallingObject>): (r: GameState)
    ensures r == g.(manual := r.manual, opponent := r.opponent, winner := r.winner, phase := r.phase)
    ensures r.manual == g.manual.(alive := r.manual.alive) && (r.manual.alive ==> g.manual.alive)
    ensures r.opponent == g.opponent.WithBody(g.opponent.Body().(alive := r.opponent.Body().alive))
    ensures r.opponent.Body().alive ==> g.opponent.Body().alive
    ensures r.phase == g.phase || r.phase == GameOver
    decreases |objs|
  {
    if objs == [] then g else CollideAll(CollideOne(g, objs[0]), objs[1..])
  }

  /** `check_collisions` over the live objects. */
  function CheckCollisions(g: GameState): GameState {
    CollideAll(g, g.objects)
  }

  /** The index of the first object that overlaps `p`, if any. */
  function FirstHit(p: Player, objs: seq<FallingObject>): (r: Option<nat>)
    ensures r.Some? ==> r.value < |objs| && Hit(p, objs[r.value]) && forall j :: 0 <= j < r.value ==> !Hit(p, objs[j])
    ensures r.None? ==> forall j :: 0 <= j < |objs| ==> !Hit(p, objs[j])
  {
    if objs == [] then None
    else if Hit(p, objs[0]) then Some(0)
    else match FirstHit(p, objs[1..])
      case None => None
      case Some(i) => Some(i + 1)
  }

  /** The index at which a player is struck in one pass; a dead player is never struck. */
  function StruckAt(p: Player, objs: seq<FallingObject>): Option<nat> {
    if p.alive then FirstHit(p, objs) else None
  }

  /** Reference outcome of a collision pass: a player is struck by its first
      overlapping object; the winner is set by the later strike, and when both are
      struck by the same object the computer player's check runs second. */
  function ExpectedWinner(manualAt: Option<nat>, aiAt: Option<nat>, prior: Option<Winner>): Option<Winner> {
    if manualAt.Some? && aiAt.Some? then
      (if aiAt.value >= manualAt.value then Some(ManualPlayerWon) else Some(AIPlayerWon))
    else if manualAt.Some? then Some(AIPlayerWon)
    else if aiAt.Some? then Some(ManualPlayerWon)
    else prior
  }

  /** After the first object, a player's strike index moves down by one, or vanishes
      when that object struck it. */
  lemma StruckAtShift(p: Player, objs: seq<FallingObject>)
    requires objs != []
    ensures var struck := p.alive && Hit(p, objs[0]);
            var s := StruckAt(p, objs);
            var s' := StruckAt(p.(alive := p.alive && !struck), objs[1..]);
            && (struck ==> s == Some(0) && s'.None?)
            && (!struck ==> (s.Some? <==> s'.Some?) && (s.Some? ==> s.value == s'.value + 1))
  {
  }

  /** The strike index of one object pass, as an Option. */
  function StruckByFirst(p: Player, o: FallingObject): Option<nat> {
    if p.alive && Hit(p, o) then Some(0) else None
  }

  lemma CollideOneOutcome(g: GameState, o: FallingObject)
    ensures var r := CollideOne(g, o);
            var m := StruckByFirst(g.manual, o);
            var a := StruckByFirst(g.opponent.Body(), o);
            && r.manual == g.manual.(alive := g.manual.alive && m.None?)
            && r.opponent.Body() == g.opponent.Body().(alive := g.opponent.Body().alive && a.None?)
            && r.winner == ExpectedWinner(m, a, g.winner)
            && r.phase == (if m.Some? || a.Some? then GameOver else g.phase)
  {
  }

  /** Composing the first object's outcome with the rest's gives the whole pass's outcome. */
  lemma ExpectedWinnerSplit(m: Option<nat>, a: Option<nat>, m0: Option<nat>, a0: Option<nat>,
                            m': Option<nat>, a': Option<nat>, prior: Option<Winner>)
    requires m0 == Some(0) ==> m == Some(0) && m'.None?
    requires m0.None? ==> (m.Some? <==> m'.Some?) && (m.Some? ==> m.value == m'.value + 1)
    requires m0.None? || m0 == Some(0)
    requires a0 == Some(0) ==> a == Some(0) && a'.None?
    requires a0.None? ==> (a.Some? <==> a'.Some?) && (a.Some? ==> a.value == a'.value + 1)
    requires a0.None? || a0 == Some(0)
    ensures ExpectedWinner(m, a, prior) == ExpectedWinner(m', a', ExpectedWinner(m0, a0, prior))
  {
  }

  lemma {:induction false} CollisionOutcome(g: GameState, objs: seq<FallingObject>)
    ensures var r := CollideAll(g, objs);
            var m := StruckAt(g.manual, objs);
            var a := StruckAt(g.opponent.Body(), objs);
            && r.manual.alive == (g.manual.alive && m.None?)
            && r.opponent.Body().alive == (g.opponent.Body().alive && a.None?)
            && r.winner == ExpectedWinner(m, a, g.winner)
            && r.phase == (if m.Some? || a.Some? then GameOver else g.phase)
    decreases |objs|
  {
    if objs != [] {
      var o := objs[0];
      var g' := CollideOne(g, o);
      CollideOneOutcome(g, o);
      CollisionOutcome(g', objs[1..]);
      StruckAtShift(g.manual, objs);
      StruckAtShift(g.opponent.Body(), objs);
      ExpectedWinnerSplit(StruckAt(g.manual, objs), StruckAt(g.opponent.Body(), objs),
                          StruckByFirst(g.manual, o), StruckByFirst(g.opponent.Body(), o),
                          StruckAt(g'.manual, objs[1..]), StruckAt(g'.opponent.Body(), objs[1..]), g.winner);
    }
  }

  /** `check_collisions` over the live objects: a live player dies exactly when some
      object overlaps it, and the winner and phase are those of the reference outcome. */
  lemma CheckCollisionsOutcome(g: GameState)
    ensures var r := CheckCollisions(g);
            var m := StruckAt(g.manual, g.objects);
            var a := StruckAt(g.opponent.Body(), g.objects);
            && r.objects == g.objects && r.frameCount == g.frameCount
            && r.manual == g.manual.(alive := r.manual.alive)
            && r.opponent.Body() == g.opponent.Body().(alive := r.opponent.Body().alive)
            && (r.manual.alive <==> g.manual.alive && forall o :: o in g.objects ==> !Hit(g.manual, o))
            && (r.opponent.Body().alive <==>
                  g.opponent.Body().alive && forall o :: o in g.objects ==> !Hit(g.opponent.Body(), o))
            && r.winner == ExpectedWinner(m, a, g.winner)
            && r.phase == (if m.Some? || a.Some? then GameOver else g.phase)
  {
    CollisionOutcome(g, g.objects);
    FirstHitNoneIffNoOverlap(g.manual, g.objects);
    FirstHitNoneIffNoOverlap(g.opponent.Body(), g.objects);
  }

  lemma FirstHitNoneIffNoOverlap(p: Player, objs: seq<FallingObject>)
    ensures FirstHit(p, objs).None? <==> forall o :: o in objs ==> !Hit(p, o)
  {
  }

  /** The computer player's update, whichever kind it is. */
  function OpponentUpdate(cfg: Config, op: Opponent, objs: seq<FallingObject>, policy: seq<real> -> int): (r: Opponent)
    requires cfg.Valid() && Conforms(cfg, op.Body())
    ensures r.HeuristicAI? == op.HeuristicAI?
    ensures r.Body() == op.Body().(x := r.Body().x)
  {
    match op
    case HeuristicAI(a) => HeuristicAI(Heuristic.Update(cfg, a, objs))
    case LearnedAI(b) => LearnedAI(TrainedAI.Update(cfg, b, objs, policy))
  }

  /** The objects after this tick's `spawn_object`, which runs on the incremented
      frame count. */
  function Spawned(cfg: Config, g: GameState, d: Draw): (s: seq<FallingObject>)
    requires cfg.Valid() && InRange(cfg, d)
    ensures (g.frameCount + 1) % cfg.objectSpawnRate == 0 ==> s == g.objects + [Spawn(cfg, d)]
    ensures (g.frameCount + 1) % cfg.objectSpawnRate != 0 ==> s == g.objects
  {
    SpawnObject(cfg, g.(frameCount := g.frameCount + 1), d).objects
  }

  /** The part of a tick before `check_collisions`: count the frame, spawn, move both
      players, let every object fall and drop those that left the arena. */
  function Advanced(cfg: Config, g: GameState, input: TickInput, policy: seq<real> -> int): (m: GameState)
    requires cfg.Valid() && WellFormed(cfg, g) && InRange(cfg, input.draw)
    ensures WellFormed(cfg, m)
    ensures m == g.(frameCount := g.frameCount + 1, manual := m.manual, opponent := m.opponent, objects := m.objects)
    ensures m.manual == HandleInput(cfg, g.manual, input.left, input.right)
    ensures m.opponent == OpponentUpdate(cfg, g.opponent, Spawned(cfg, g, input.draw), policy)
    ensures m.objects == Prune(cfg, AdvanceAll(Spawned(cfg, g, input.draw)))
  {
    var g1 := g.(frameCount := g.frameCount + 1);
    var g2 := SpawnObject(cfg, g1, input.draw);
    var manual := HandleInput(cfg, g2.manual, input.left, input.right);
    var opponent := OpponentUpdate(cfg, g2.opponent, g2.objects, policy);
    var objects := Prune(cfg, AdvanceAll(g2.objects));
    g2.(manual := manual, opponent := opponent, objects := objects)
  }

  /** After the collision check the players are where the tick moved them, and the
      computer player keeps the decision state its own update produced. */
  lemma TickMoves(cfg: Config, g: GameState, input: TickInput, policy: seq<real> -> int)
    requires cfg.Valid() && WellFormed(cfg, g) && InRange(cfg, input.draw)
    ensures var r := CheckCollisions(Advanced(cfg, g, input, policy));
            var spawned := Spawned(cfg, g, input.draw);
            && r.useTrainedAI == g.useTrainedAI && r.hasModel == g.hasModel
            && r.manual == HandleInput(cfg, g.manual, input.left, input.right).(alive := r.manual.alive)
            && (g.opponent.HeuristicAI? ==>
                  var u := Heuristic.Update(cfg, g.opponent.ai, spawned);
                  r.opponent == HeuristicAI(u.(body := u.body.(alive := r.opponent.Body().alive))))
            && (g.opponent.LearnedAI? ==>
                  var u := TrainedAI.Update(cfg, g.opponent.bot, spawned, policy);
                  r.opponent == LearnedAI(u.(body := u.body.(alive := r.opponent.Body().alive))))
  {
    var m := Advanced(cfg, g, input, policy);
    var r := CheckCollisions(m);
    assert r.opponent == m.opponent.WithBody(m.opponent.Body().(alive := r.opponent.Body().alive));
  }

  /** `Game.update`: one tick while playing, nothing otherwise. */
  function Update(cfg: Config, g: GameState, input: TickInput, policy: seq<real> -> int): (r: GameState)
    requires cfg.Valid() && WellFormed(cfg, g) && InRange(cfg, input.draw)
    ensures WellFormed(cfg, r)
    ensures g.phase != Playing ==> r == g
    ensures g.phase == Playing ==> r.frameCount == g.frameCount + 1
    ensures g.phase == Playing ==> forall o :: o in r.objects ==> !IsOffScreen(cfg, o)
    ensures r.manual.alive ==> g.manual.alive
    ensures r.opponent.Body().alive ==> g.opponent.Body().alive
    ensures g.phase == Playing && g.manual.alive && (exists o :: o in r.objects && Hit(r.manual, o)) ==>
              !r.manual.alive && r.phase == GameOver
    ensures g.phase == Playing && g.opponent.Body().alive && (exists o :: o in r.objects && Hit(r.opponent.Body(), o)) ==>
              !r.opponent.Body().alive && r.phase == GameOver
    // the surviving objects: last tick's objects plus the one spawned on this frame,
    // each fallen by its speed, minus those that left the arena
    ensures g.phase == Playing ==>
              && r.objects == Prune(cfg, AdvanceAll(Spawned(cfg, g, input.draw)))
              && forall o :: o in r.objects <==> o in AdvanceAll(Spawned(cfg, g, input.draw)) && !IsOffScreen(cfg, o)
    // both players move on every tick: the manual one by its keys, the computer one by
    // its own update, which sees the objects before they fall
    ensures r.useTrainedAI == g.useTrainedAI && r.hasModel == g.hasModel
    ensures g.phase == Playing ==>
              r.manual == HandleInput(cfg, g.manual, input.left, input.right).(alive := r.manual.alive)
    ensures g.phase == Playing && g.opponent.HeuristicAI? ==>
              var u := Heuristic.Update(cfg, g.opponent.ai, Spawned(cfg, g, input.draw));
              r.opponent == HeuristicAI(u.(body := u.body.(alive := r.opponent.Body().alive)))
    ensures g.phase == Playing && g.opponent.LearnedAI? ==>
              var u := TrainedAI.Update(cfg, g.opponent.bot, Spawned(cfg, g, input.draw), policy);
              r.opponent == LearnedAI(u.(body := u.body.(alive := r.opponent.Body().alive)))
    // a live player survives exactly when no surviving object overlaps it
    ensures g.phase == Playing ==>
              && (r.manual.alive <==> g.manual.alive && forall o :: o in r.objects ==> !Hit(r.manual, o))
              && (r.opponent.Body().alive <==>
                    g.opponent.Body().alive && forall o :: o in r.objects ==> !Hit(r.opponent.Body(), o))
    // the winner and phase follow the reference outcome of the collision pass
    ensures g.phase == Playing ==>
              var m := StruckAt(r.manual.(alive := g.manual.alive), r.objects);
              var a := StruckAt(r.opponent.Body().(alive := g.opponent.Body().alive), r.objects);
              && r.winner == ExpectedWinner(m, a, g.winner)
              && r.phase == (if m.Some? || a.Some? then GameOver else Playing)
  {
    if g.phase != Playing then g
    else
      var moved := Advanced(cfg, g, input, policy);
      CheckCollisionsOutcome(moved);
      TickMoves(cfg, g, input, policy);
      CheckCollisions(moved)
  }

  /** ESC or closing the window ends the session. */
  predicate Stops(e: Event) {
    e.Quit? || e == KeyDown(Escape)
  }

  /** One event of `handle_events`; the flag is false when the session should end. */
  function HandleEvent(cfg: Config, g: GameState, e: Event): (res: (bool, GameState))
    ensures res.0 == !Stops(e)
    ensures Stops(e) ==> res.1 == g
    ensures e == KeyDown(Space) && g.phase == Menu ==> res.1 == Reset(cfg, g.(phase := Playing))
    ensures e == KeyDown(Space) && g.phase == GameOver ==> res.1 == Reset(cfg, g.(phase := Menu))
    ensures e == KeyDown(Space) && g.phase == Playing ==> res.1 == g
    ensures e != KeyDown(Space) ==> res.1 == g
  {
    match e
    case Quit => (false, g)
    case OtherEvent => (true, g)
    case KeyDown(k) =>
      match k
      case Escape => (false, g)
      case OtherKey => (true, g)
      case Space =>
        if g.phase == Menu then (true, Reset(cfg, g.(phase := Playing)))
        else if g.phase == GameOver then (true, Reset(cfg, g.(phase := Menu)))
        else (true, g)
  }

  /** `handle_events`: the events of one frame in order, stopping at the first that ends
      the session. */
  function HandleEvents(cfg: Config, g: GameState, events: seq<Event>): (res: (bool, GameState))
    ensures res.0 <==> forall i :: 0 <= i < |events| ==> !Stops(events[i])
    ensures |events| > 0 && Stops(events[0]) ==> res == (false, g)
    ensures (forall i :: 0 <= i < |events| ==> events[i] != KeyDown(Space)) ==> res.1 == g
    decreases |events|
  {
    if events == [] then (true, g)
    else
      var (running, g') := HandleEvent(cfg, g, events[0]);
      if !running then (false, g')
      else
        var res := HandleEvents(cfg, g', events[1..]);
        assert forall i :: 1 <= i < |events| ==> events[i] == events[1..][i - 1];
        res
  }

  /** The number of SPACE presses that `handle_events` sees: those before the first
      event that ends the session. */
  function SpacesBeforeStop(events: seq<Event>): nat
    decreases |events|
  {
    if events == [] || Stops(events[0]) then 0
    else (if events[0] == KeyDown(Space) then 1 else 0) + SpacesBeforeStop(events[1..])
  }

  /** Reference for the state after `n` SPACE presses: SPACE starts a game from the menu,
      returns to the menu after a game over, and is ignored while playing; each
      transition resets the session. */
  function AfterSpaces(cfg: Config, g: GameState, n: nat): GameState {
    if n == 0 || g.phase == Playing then g
    else if g.phase == Menu then Reset(cfg, g.(phase := Playing))
    else if n == 1 then Reset(cfg, g.(phase := Menu))
    else Reset(cfg, g.(phase := Playing))
  }

  /** A frame's events leave the session in the state that the SPACE presses before
      the first stopping event determine. */
  lemma {:induction false} HandleEventsOutcome(cfg: Config, g: GameState, events: seq<Event>)
    ensures HandleEvents(cfg, g, events).1 == AfterSpaces(cfg, g, SpacesBeforeStop(events))
    decreases |events|
  {
    if events != [] && !Stops(events[0]) {
      var g' := HandleEvent(cfg, g, events[0]).1;
      HandleEventsOutcome(cfg, g', events[1..]);
      var n' := SpacesBeforeStop(events[1..]);
      if events[0] == KeyDown(Space) && g.phase == GameOver && n' > 0 {
        assert g'.phase == Menu;
        assert Reset(cfg, g'.(phase := Playing)) == Reset(cfg, g.(phase := Playing));
      }
    }
  }
}

=== FILE: game_config.dfy ===
/** The game's tuning constants, gathered into one immutable record that every
    component receives explicitly, plus the small real-arithmetic helpers and the
    axis-aligned rectangle test the components share. */
module GameConfig {

  datatype Config = Config(
    screenWidth: int,
    screenHeight: int,
    playerWidth: int,
    playerHeight: int,
    playerSpeed: real,
    objectMinSize: int,
    objectMaxSize: int,
    objectMinSpeed: real,
    objectMaxSpeed: real,
    objectSpawnRate: int,
    aiReactionDistance: real,
    aiPredictionLookahead: real)
  {
    /** What the model requires of the configuration. The code relies on: a player narrower than
        the arena (otherwise the safe-zone search takes the minimum of no lanes), a
        non-empty range for every random draw, a positive spawn interval and maximal
        speed (both are divisors), and a reaction line at or above y = screen height -
        player height, the line from which the code measures the distance to impact.
        The last one makes every impact time of a threat positive: it excludes the
        zero divisor of 1/(t+1) and the negative impact times whose levels would fall
        outside [0, 1]. One clause is a modelling assumption that no code needs: a
        positive player speed, on which the direction facts about moves rely (an
        action or key moves the player the way it names). */
    predicate Valid() {
      && 0 < playerWidth < screenWidth
      && 0 < playerHeight <= screenHeight
      && 0.0 < playerSpeed
      && 0 < objectMinSize <= objectMaxSize <= screenWidth
      && objectMinSpeed <= objectMaxSpeed
      && 0.0 < objectMaxSpeed
      && 0 < objectSpawnRate
      && aiReactionDistance <= (screenHeight - playerHeight) as real
    }

    /** The largest x a player of the given width may take. */
    function RightLimit(width: int): real {
      (screenWidth - width) as real
    }
  }

  function Abs(x: real): real {
    if x < 0.0 then -x else x
  }

  function IntAbs(x: int): nat {
    if x < 0 then -x else x
  }

  function Max(a: real, b: real): real {
    if a < b then b else a
  }

  function Min(a: real, b: real): real {
    if a < b then a else b
  }

  /** An axis-aligned rectangle: left edge, top edge, width, height (y grows downwards). */
  datatype Rect = Rect(left: real, top: real, width: real, height: real)

  /** Strict overlap: rectangles that only share an edge do not collide. */
  predicate Overlaps(a: Rect, b: Rect) {
    && a.left < b.left + b.width
    && b.left < a.left + a.width
    && a.top < b.top + b.height
    && b.top < a.top + a.height
  }
}

=== FILE: observation.dfy ===
/** The fixed-length observation vector shared by the learning environment and the
    learned-policy player: three features of the player followed by three threat
    triples, the nearest tracked objects first, padded with a neutral triple. */
module Observations {
  import opened GameConfig
  import opened Sequences
  import opened FallingObjects

  /** Horizontal offset from the player, vertical distance to the ground, and speed,
      each normalised by the arena or the maximal speed. */
  datatype ThreatFeature = ThreatFeature(dx: real, dy: real, speedRatio: real)

  /** The triple that fills a slot no object occupies. */
  const Padding: ThreatFeature := ThreatFeature(0.0, 1.0, 0.0)
  /** Number of threat triples in an observation. */
  const Slots: nat := 3
  /** Length of an observation: three player features plus `Slots` triples. */
  const ObservationSize: nat := 12

  /** Only objects in the upper 60% of the arena are observed. */
  predicate Tracked(cfg: Config, o: FallingObject) {
    o.y < 0.6 * cfg.screenHeight as real
  }

  function Feature(cfg: Config, aiCenter: real, o: FallingObject): ThreatFeature
    requires cfg.Valid()
  {
    ThreatFeature(
      (ObjectCenter(o) as real - aiCenter) / cfg.screenWidth as real,
      (cfg.screenHeight as real - o.y) / cfg.screenHeight as real,
      o.speed / cfg.objectMaxSpeed)
  }

  function VerticalDistance(f: ThreatFeature): real {
    f.dy
  }

  /** The features of the tracked objects, in object order. */
  function TrackedFeatures(cfg: Config, aiCenter: real, objs: seq<FallingObject>): (r: seq<ThreatFeature>)
    requires cfg.Valid()
    ensures |r| <= |objs|
    ensures forall f :: f in r ==> exists o :: o in objs && Tracked(cfg, o) && f == Feature(cfg, aiCenter, o)
    ensures forall o :: o in objs && Tracked(cfg, o) ==> Feature(cfg, aiCenter, o) in r
    ensures (forall o :: o in objs ==> !Tracked(cfg, o)) ==> r == []
  {
    if objs == [] then []
    else
      (if Tracked(cfg, objs[0]) then [Feature(cfg, aiCenter, objs[0])] else [])
      + TrackedFeatures(cfg, aiCenter, objs[1..])
  }

  /** Tracked features keep the order of the objects they come from. */
  lemma {:induction false} TrackedFeaturesAppend(cfg: Config, aiCenter: real, a: seq<FallingObject>, b: seq<FallingObject>)
    requires cfg.Valid()
    ensures TrackedFeatures(cfg, aiCenter, a + b) == TrackedFeatures(cfg, aiCenter, a) + TrackedFeatures(cfg, aiCenter, b)
  {
    if a == [] {
      assert a + b == b;
    } else {
      assert (a + b)[0] == a[0];
      assert (a + b)[1..] == a[1..] + b;
      TrackedFeaturesAppend(cfg, aiCenter, a[1..], b);
    }
  }

  /** The tracked features stably sorted by vertical distance (`list.sort`). */
  function Nearest(cfg: Config, aiCenter: real, objs: seq<FallingObject>): (r: seq<ThreatFeature>)
    requires cfg.Valid()
    ensures SortedBy(r, VerticalDistance)
    ensures multiset(r) == multiset(TrackedFeatures(cfg, aiCenter, objs))
    ensures forall v :: WithKey(r, VerticalDistance, v) == WithKey(TrackedFeatures(cfg, aiCenter, objs), VerticalDistance, v)
  {
    var tracked := TrackedFeatures(cfg, aiCenter, objs);
    SortByStableEverywhere(tracked, VerticalDistance);
    SortBy(tracked, VerticalDistance)
  }

  /** The first `Slots` nearest features, padded to exactly `Slots` entries. */
  function SlotFeatures(cfg: Config, aiCenter: real, objs: seq<FallingObject>): (r: seq<ThreatFeature>)
    requires cfg.Valid()
    ensures |r| == Slots
    ensures forall k :: 0 <= k < Slots && k < |Nearest(cfg, aiCenter, objs)| ==> r[k] == Nearest(cfg, aiCenter, objs)[k]
    ensures forall k :: 0 <= k < Slots && k >= |Nearest(cfg, aiCenter, objs)| ==> r[k] == Padding
  {
    var nearest := Nearest(cfg, aiCenter, objs);
    var shown := if |nearest| <= Slots then nearest else nearest[..Slots];
    shown + seq(Slots - |shown|, _ => Padding)
  }

  /** The triples laid end to end, as `observation.extend(threat)` does. */
  function Flatten(s: seq<ThreatFeature>): (r: seq<real>)
    ensures |r| == 3 * |s|
    ensures forall k :: 0 <= k < |s| ==>
              r[3 * k] == s[k].dx && r[3 * k + 1] == s[k].dy && r[3 * k + 2] == s[k].speedRatio
  {
    if s == [] then []
    else
      var rest := Flatten(s[1..]);
      var r := [s[0].dx, s[0].dy, s[0].speedRatio] + rest;
      assert forall k :: 1 <= k < |s| ==> r[3 * k] == rest[3 * (k - 1)] && s[k] == s[1..][k - 1];
      r
  }

  /** The observation vector for a player of `width` at `x`. */
  function Observe(cfg: Config, x: real, width: int, objs: seq<FallingObject>): (obs: seq<real>)
    requires cfg.Valid()
    ensures |obs| == ObservationSize
    ensures var w := cfg.screenWidth as real;
            && obs[0] == (x + (width / 2) as real) / w
            && obs[1] == (w - x) / w
            && obs[2] == x / w
    ensures var slots := SlotFeatures(cfg, x + (width / 2) as real, objs);
            forall k :: 0 <= k < Slots ==>
              obs[3 + 3 * k] == slots[k].dx && obs[4 + 3 * k] == slots[k].dy && obs[5 + 3 * k] == slots[k].speedRatio
  {
    var w := cfg.screenWidth as real;
    var aiCenter := x + (width / 2) as real;
    [aiCenter / w, (w - x) / w, x / w] + Flatten(SlotFeatures(cfg, aiCenter, objs))
  }

  /** Only tracked objects are observed, and none left out is nearer than one shown. */
  lemma SlotsHoldNearestTracked(cfg: Config, aiCenter: real, objs: seq<FallingObject>, o: FallingObject)
    requires cfg.Valid() && o in objs && Tracked(cfg, o)
    ensures var slots := SlotFeatures(cfg, aiCenter, objs);
            var shown := if |Nearest(cfg, aiCenter, objs)| < Slots then |Nearest(cfg, aiCenter, objs)| else Slots;
            && (forall k :: 0 <= k < shown ==> exists q :: q in objs && Tracked(cfg, q) && slots[k] == Feature(cfg, aiCenter, q))
            && (Feature(cfg, aiCenter, o) !in slots[..shown] ==>
                  forall k :: 0 <= k < shown ==> slots[k].dy <= Feature(cfg, aiCenter, o).dy)
  {
    var nearest := Nearest(cfg, aiCenter, objs);
    var tracked := TrackedFeatures(cfg, aiCenter, objs);
    var slots := SlotFeatures(cfg, aiCenter, objs);
    var shown := if |nearest| < Slots then |nearest| else Slots;
    forall k | 0 <= k < shown
      ensures exists q :: q in objs && Tracked(cfg, q) && slots[k] == Feature(cfg, aiCenter, q)
    {
      assert nearest[k] in multiset(tracked);
      assert nearest[k] in tracked;
      assert slots[k] == nearest[k];
    }
    var f := Feature(cfg, aiCenter, o);
    assert f in multiset(nearest);
    var j :| 0 <= j < |nearest| && nearest[j] == f;
    assert forall k :: 0 <= k < shown ==> slots[..shown][k] == nearest[k];
  }

  /** With nothing tracked, every threat slot is the neutral triple. */
  lemma NothingTrackedGivesPadding(cfg: Config, x: real, width: int, objs: seq<FallingObject>)
    requires cfg.Valid() && forall o :: o in objs ==> !Tracked(cfg, o)
    ensures Observe(cfg, x, width, objs)[3..] == [0.0, 1.0, 0.0, 0.0, 1.0, 0.0, 0.0, 1.0, 0.0]
  {
    var aiCenter := x + (width / 2) as real;
    assert |TrackedFeatures(cfg, aiCenter, objs)| == 0;
    assert |Nearest(cfg, aiCenter, objs)| == 0;
    var slots := SlotFeatures(cfg, aiCenter, objs);
    assert slots == [Padding, Padding, Padding];
    var flat := Flatten(slots);
    assert flat == [0.0, 1.0, 0.0, 0.0, 1.0, 0.0, 0.0, 1.0, 0.0];
  }
}

=== FILE: player.dfy ===
/** The agent shared by the human and the computer players: a rectangle on the
    ground that moves only horizontally, by its speed times a direction, and is
    clamped into the arena. */
module Players {
  import opened GameConfig

  datatype Player = Player(x: real, y: real, width: int, height: int, speed: real, alive: bool)

  /** A fresh, living player with the configured size and speed. */
  function NewPlayer(cfg: Config, x: real, y: real): (p: Player)
    ensures Conforms(cfg, p) && p.alive
    ensures p.x == x && p.y == y
  {
    Player(x, y, cfg.playerWidth, cfg.playerHeight, cfg.playerSpeed, true)
  }

  /** The player's size and speed are those of the configuration. */
  predicate Conforms(cfg: Config, p: Player) {
    p.width == cfg.playerWidth && p.height == cfg.playerHeight && p.speed == cfg.playerSpeed
  }

  predicate InBounds(cfg: Config, p: Player) {
    0.0 <= p.x <= cfg.RightLimit(p.width)
  }

  /** The collision rectangle; it is derived from the position, so it always tracks x. */
  function PlayerRect(p: Player): Rect {
    Rect(p.x, p.y, p.width as real, p.height as real)
  }

  /** Horizontal centre, with the integer halving of the width the code uses. */
  function PlayerCenter(p: Player): real {
    p.x + (p.width / 2) as real
  }

  /** `move(dx)`: step by dx * speed, then clamp into [0, screen width - width]. */
  function Move(cfg: Config, p: Player, dx: real): (r: Player)
    ensures r == p.(x := r.x)
    ensures p.width <= cfg.screenWidth ==> InBounds(cfg, r)
    ensures 0.0 <= p.x + dx * p.speed <= cfg.RightLimit(p.width) ==> r.x == p.x + dx * p.speed
    ensures p.x + dx * p.speed < 0.0 ==> r.x == 0.0
    ensures p.width <= cfg.screenWidth && p.x + dx * p.speed > cfg.RightLimit(p.width) ==>
              r.x == cfg.RightLimit(p.width)
  {
    var stepped := p.x + dx * p.speed;
    p.(x := Max(0.0, Min(stepped, cfg.RightLimit(p.width))))
  }

  /** Starting in bounds, a move never goes against its direction. */
  lemma MoveMonotone(cfg: Config, p: Player, dx: real)
    requires InBounds(cfg, p) && p.speed >= 0.0
    ensures dx >= 0.0 ==> Move(cfg, p, dx).x >= p.x
    ensures dx <= 0.0 ==> Move(cfg, p, dx).x <= p.x
  {
  }

  /** The human player: LEFT moves by -1, then RIGHT moves by +1. */
  function HandleInput(cfg: Config, p: Player, left: bool, right: bool): (r: Player)
    ensures r == p.(x := r.x)
    ensures p.width <= cfg.screenWidth && (left || right) ==> InBounds(cfg, r)
    ensures !left && !right ==> r == p
    ensures left && !right ==> r == Move(cfg, p, -1.0)
    ensures right && !left ==> r == Move(cfg, p, 1.0)
  {
    var afterLeft := if left then Move(cfg, p, -1.0) else p;
    if right then Move(cfg, afterLeft, 1.0) else afterLeft
  }

  /** Holding both keys cancels out when the left step stays inside the arena. */
  lemma BothKeysCancel(cfg: Config, p: Player)
    requires 0.0 <= p.speed <= p.x <= cfg.RightLimit(p.width)
    ensures HandleInput(cfg, p, true, true) == p
  {
  }
}

=== FILE: sequences.dfy ===
/** Sequence algorithms the game needs from Python's built-ins: a stable sort by a
    real key (`sorted` / `list.sort`), the first minimum (`min` with a key), and a sum. */
module Sequences {

  /** Non-decreasing by `key`. */
  predicate SortedBy<T>(s: seq<T>, key: T -> real) {
    forall i, j :: 0 <= i < j < |s| ==> key(s[i]) <= key(s[j])
  }

  /** The elements of `s` whose key is exactly `v`, in their order in `s`. A sort is
      stable when this sub-sequence is the same before and after sorting, for every `v`. */
  function WithKey<T>(s: seq<T>, key: T -> real, v: real): (r: seq<T>)
    ensures |r| <= |s|
    ensures forall x :: x in r ==> x in s && key(x) == v
  {
    if s == [] then [] else (if key(s[0]) == v then [s[0]] else []) + WithKey(s[1..], key, v)
  }

  lemma {:induction false} WithKeyAppend<T>(a: seq<T>, b: seq<T>, key: T -> real, v: real)
    ensures WithKey(a + b, key, v) == WithKey(a, key, v) + WithKey(b, key, v)
  {
    if a == [] {
      assert a + b == b;
    } else {
      assert (a + b)[0] == a[0];
      assert (a + b)[1..] == a[1..] + b;
      WithKeyAppend(a[1..], b, key, v);
    }
  }

  /** Puts `x` in front of the first element whose key is not smaller than its own, so
      `x` precedes every element with an equal key. */
  function Insert<T>(x: T, s: seq<T>, key: T -> real): (r: seq<T>)
    ensures |r| == |s| + 1
    ensures multiset(r) == multiset(s) + multiset{x}
  {
    if s == [] || key(x) <= key(s[0]) then [x] + s
    else
      assert s == [s[0]] + s[1..];
      [s[0]] + Insert(x, s[1..], key)
  }

  lemma {:induction false} InsertSorted<T>(x: T, s: seq<T>, key: T -> real)
    requires SortedBy(s, key)
    ensures SortedBy(Insert(x, s, key), key)
  {
    if s == [] || key(x) <= key(s[0]) {
    } else {
      var rest := Insert(x, s[1..], key);
      InsertSorted(x, s[1..], key);
      forall j | 0 <= j < |rest|
        ensures key(s[0]) <= key(rest[j])
      {
        assert rest[j] in multiset(rest);
        if rest[j] != x {
          assert rest[j] in multiset(s[1..]);
          var i :| 0 <= i < |s[1..]| && s[1..][i] == rest[j];
          assert s[i + 1] == rest[j];
        }
      }
    }
  }

  /** Insertion sort: Python's stable `sorted(s, key=key)`. */
  function SortBy<T>(s: seq<T>, key: T -> real): (r: seq<T>)
    ensures |r| == |s|
    ensures multiset(r) == multiset(s)
    ensures SortedBy(r, key)
  {
    if s == [] then []
    else
      assert s == [s[0]] + s[1..];
      InsertSorted(s[0], SortBy(s[1..], key), key);
      Insert(s[0], SortBy(s[1..], key), key)
  }

  lemma {:induction false} InsertKeepsEqualKeysInOrder<T>(x: T, s: seq<T>, key: T -> real, v: real)
    ensures WithKey(Insert(x, s, key), key, v) == WithKey([x] + s, key, v)
  {
    if s == [] || key(x) <= key(s[0]) {
    } else {
      var rest := Insert(x, s[1..], key);
      var tail := WithKey(s[1..], key, v);
      var head, mid := WithKey([s[0]], key, v), WithKey([x], key, v);
      assert Insert(x, s, key) == [s[0]] + rest;
      assert s == [s[0]] + s[1..];
      InsertKeepsEqualKeysInOrder(x, s[1..], key, v);
      WithKeyAppend([s[0]], rest, key, v);
      WithKeyAppend([x], s[1..], key, v);
      WithKeyAppend([s[0]], s[1..], key, v);
      WithKeyAppend([x], s, key, v);
      assert WithKey(Insert(x, s, key), key, v) == head + (mid + tail);
      assert WithKey([x] + s, key, v) == mid + (head + tail);
      // s[0] and x have different keys, so at most one of them has key v
      if key(s[0]) == v {
        assert mid == [];
        assert head + ([] + tail) == [] + (head + tail);
      } else {
        assert head == [];
        assert [] + (mid + tail) == mid + ([] + tail);
      }
    }
  }

  /** Stability: sorting never reorders elements whose keys are equal. */
  lemma {:induction false} SortByStable<T>(s: seq<T>, key: T -> real, v: real)
    ensures WithKey(SortBy(s, key), key, v) == WithKey(s, key, v)
  {
    if s != [] {
      var sortedTail := SortBy(s[1..], key);
      assert SortBy(s, key) == Insert(s[0], sortedTail, key);
      calc {
        WithKey(SortBy(s, key), key, v);
        { InsertKeepsEqualKeysInOrder(s[0], sortedTail, key, v); }
        WithKey([s[0]] + sortedTail, key, v);
        { WithKeyAppend([s[0]], sortedTail, key, v); }
        WithKey([s[0]], key, v) + WithKey(sortedTail, key, v);
        { SortByStable(s[1..], key, v); }
        WithKey([s[0]], key, v) + WithKey(s[1..], key, v);
        { WithKeyAppend([s[0]], s[1..], key, v); assert [s[0]] + s[1..] == s; }
        WithKey(s, key, v);
      }
    }
  }

  lemma SortByStableEverywhere<T>(s: seq<T>, key: T -> real)
    ensures forall v :: WithKey(SortBy(s, key), key, v) == WithKey(s, key, v)
  {
    forall v {
      SortByStable(s, key, v);
    }
  }

  /** Sum of `f` over `s`, left to right. */
  function SumOf<T>(s: seq<T>, f: T -> real): (r: real)
    ensures (forall i :: 0 <= i < |s| ==> f(s[i]) >= 0.0) ==> r >= 0.0
    ensures (forall i :: 0 <= i < |s| ==> f(s[i]) == 0.0) ==> r == 0.0
  {
    if s == [] then 0.0 else f(s[0]) + SumOf(s[1..], f)
  }

  /** A sum of non-negative terms is positive exactly when some term is. */
  lemma {:induction false} SumOfPositive<T>(s: seq<T>, f: T -> real)
    requires forall i :: 0 <= i < |s| ==> f(s[i]) >= 0.0
    ensures SumOf(s, f) > 0.0 <==> exists i :: 0 <= i < |s| && f(s[i]) > 0.0
    decreases |s|
  {
    if s != [] {
      assert forall i :: 0 <= i < |s[1..]| ==> s[1..][i] == s[i + 1];
      SumOfPositive(s[1..], f);
      if exists i :: 0 <= i < |s[1..]| && f(s[1..][i]) > 0.0 {
        var i :| 0 <= i < |s[1..]| && f(s[1..][i]) > 0.0;
        assert f(s[i + 1]) > 0.0;
      }
      if exists i :: 0 <= i < |s| && f(s[i]) > 0.0 {
        var i :| 0 <= i < |s| && f(s[i]) > 0.0;
        if i > 0 {
          assert f(s[1..][i - 1]) > 0.0;
        }
      }
    }
  }

  lemma {:induction false} SumOfAppend<T>(a: seq<T>, b: seq<T>, f: T -> real)
    ensures SumOf(a + b, f) == SumOf(a, f) + SumOf(b, f)
  {
    if a == [] {
      assert a + b == b;
    } else {
      assert (a + b)[0] == a[0];
      assert (a + b)[1..] == a[1..] + b;
      SumOfAppend(a[1..], b, f);
    }
  }

  /** Taking one term out of a sum leaves the sum of the rest. */
  lemma {:induction false} SumOfRemove<T>(b: seq<T>, i: nat, f: T -> real)
    requires i < |b|
    ensures SumOf(b, f) == f(b[i]) + SumOf(b[..i] + b[i + 1..], f)
    decreases i
  {
    if i == 0 {
      assert b[..i] + b[i + 1..] == b[1..];
    } else {
      var tail := b[1..];
      SumOfRemove(tail, i - 1, f);
      var rest := b[..i] + b[i + 1..];
      assert rest[0] == b[0];
      assert rest[1..] == tail[..i - 1] + tail[i..];
    }
  }

  /** Removing the same element from two equal multisets leaves equal multisets. */
  lemma MultisetRemove<T>(a: seq<T>, b: seq<T>, i: nat)
    requires |a| > 0 && i < |b| && b[i] == a[0] && multiset(a) == multiset(b)
    ensures multiset(a[1..]) == multiset(b[..i] + b[i + 1..])
  {
    assert a == [a[0]] + a[1..];
    assert multiset(a) == multiset{a[0]} + multiset(a[1..]);
    assert b == b[..i] + [b[i]] + b[i + 1..];
    assert multiset(b) == multiset(b[..i]) + multiset{a[0]} + multiset(b[i + 1..]);
    var rest := b[..i] + b[i + 1..];
    assert multiset(rest) == multiset(b[..i]) + multiset(b[i + 1..]);
    assert multiset(b) == multiset(rest) + multiset{a[0]};
    assert multiset(a[1..]) == multiset(a) - multiset{a[0]};
    assert multiset(rest) == multiset(b) - multiset{a[0]};
  }

  /** A sum does not depend on the order of its terms. */
  lemma {:induction false} SumOfPermutation<T>(a: seq<T>, b: seq<T>, f: T -> real)
    requires multiset(a) == multiset(b)
    ensures SumOf(a, f) == SumOf(b, f)
    decreases |a|
  {
    if a != [] {
      assert a[0] in multiset(b);
      var i :| 0 <= i < |b| && b[i] == a[0];
      MultisetRemove(a, b, i);
      SumOfPermutation(a[1..], b[..i] + b[i + 1..], f);
      SumOfRemove(b, i, f);
    } else {
      assert |b| == |multiset(b)|;
    }
  }

  /** The index of the first minimal element, as Python's `min` picks it: a later
      element replaces the current minimum only when strictly smaller. */
  function LeftmostMin(s: seq<real>): (k: nat)
    requires |s| > 0
    ensures k < |s|
    ensures forall j :: 0 <= j < |s| ==> s[k] <= s[j]
    ensures forall j :: 0 <= j < k ==> s[k] < s[j]
  {
    if |s| == 1 then 0
    else
      var k := LeftmostMin(s[..|s| - 1]);
      if s[|s| - 1] < s[k] then |s| - 1 else k
  }
}

=== FILE: trained_ai_player.dfy ===
/** The learned-policy player: it builds the shared observation and lets an external
    policy choose among three discrete actions. The policy itself is a parameter. */
module TrainedAI {
  import opened GameConfig
  import opened FallingObjects
  import opened Players
  import opened Observations

  /** `hasModel` is false when no trained model was loaded. */
  datatype TrainedPlayer = TrainedPlayer(body: Player, hasModel: bool, lastAction: int)

  function NewTrainedPlayer(cfg: Config, x: real, y: real, hasModel: bool): (t: TrainedPlayer)
    ensures Conforms(cfg, t.body) && t.body.alive && t.body.x == x && t.body.y == y
    ensures t.hasModel == hasModel && t.lastAction == 0
  {
    TrainedPlayer(NewPlayer(cfg, x, y), hasModel, 0)
  }

  /** What the policy sees: the shared observation for this player's position and width. */
  function Observation(cfg: Config, t: TrainedPlayer, objs: seq<FallingObject>): (obs: seq<real>)
    requires cfg.Valid()
    ensures |obs| == ObservationSize
  {
    Observe(cfg, t.body.x, t.body.width, objs)
  }

  /** Action 1 is one step left, action 2 one step right, anything else stays put:
      the actions are the manual player's left and right keys. */
  function ApplyAction(cfg: Config, p: Player, action: int): (r: Player)
    ensures r == p.(x := r.x)
    ensures action == 1 ==> r == Move(cfg, p, -1.0) && r == HandleInput(cfg, p, true, false)
    ensures action == 2 ==> r == Move(cfg, p, 1.0) && r == HandleInput(cfg, p, false, true)
    ensures action != 1 && action != 2 ==> r == p
  {
    if action == 1 then Move(cfg, p, -1.0)
    else if action == 2 then Move(cfg, p, 1.0)
    else p
  }

  /** From inside the arena, action 1 never moves right, action 2 never moves left,
      and the player stays inside the arena. */
  lemma ApplyActionDirection(cfg: Config, p: Player, action: int)
    requires InBounds(cfg, p) && p.speed >= 0.0 && p.width <= cfg.screenWidth
    ensures InBounds(cfg, ApplyAction(cfg, p, action))
    ensures action == 1 ==> ApplyAction(cfg, p, action).x <= p.x
    ensures action == 2 ==> ApplyAction(cfg, p, action).x >= p.x
  {
  }

  /** `TrainedAIPlayer.update` with `model.predict` given as `policy`. */
  function Update(cfg: Config, t: TrainedPlayer, objs: seq<FallingObject>, policy: seq<real> -> int): (r: TrainedPlayer)
    requires cfg.Valid()
    ensures !t.hasModel ==> r == t
    ensures t.hasModel ==>
              && r.hasModel
              && r.lastAction == policy(Observation(cfg, t, objs))
              && r.body == ApplyAction(cfg, t.body, r.lastAction)
    ensures r.body == t.body.(x := r.body.x)
  {
    if !t.hasModel then t
    else
      var action := policy(Observation(cfg, t, objs));
      TrainedPlayer(ApplyAction(cfg, t.body, action), t.hasModel, action)
  }
}

=== FILE: training_env.dfy ===
/** The reinforcement-learning environment: one computer player on the ground,
    three discrete actions, a spawn schedule that speeds up with experience and
    caps the object count, strict rectangle collision, and a shaped reward. */
module TrainingEnv {
  import opened GameConfig
  import opened Sequences
  import opened FallingObjects
  import opened Observations

  /** Episode length after which the episode is truncated. */
  const MaxSteps: nat := 10000
  /** Spawning stops while this many objects are live. */
  const MaxObjects: nat := 15
  const SurvivalReward: real := 0.05
  const NearMissBonus: real := 0.4
  const NearMissWeight: real := 1.5
  const EdgeMargin: real := 30.0
  const EdgePenalty: real := 0.05
  const CollisionPenalty: real := 3.0
  const CompletionBonus: real := 1.0

  datatype Env = Env(
    aiX: real,
    objects: seq<FallingObject>,
    frameCount: nat,
    steps: nat,
    maxSteps: nat,
    gameOver: bool,
    collisionCount: nat)

  /** The constructor. It starts the player's left edge at half the screen width, half a
      player width right of where `reset` puts it; every counter starts at zero. */
  function NewEnv(cfg: Config): (e: Env)
    ensures e.maxSteps == MaxSteps && e.objects == [] && !e.gameOver
    ensures e.aiX == (cfg.screenWidth / 2) as real
    ensures e.frameCount == 0 && e.steps == 0 && e.collisionCount == 0
  {
    Env((cfg.screenWidth / 2) as real, [], 0, 0, MaxSteps, false, 0)
  }

  function Observation(cfg: Config, e: Env): (obs: seq<real>)
    requires cfg.Valid()
    ensures |obs| == ObservationSize
  {
    Observe(cfg, e.aiX, cfg.playerWidth, e.objects)
  }

  /** `reset`: the player centred, nothing falling, all counters zero. */
  function Reset(cfg: Config, e: Env): (res: (Env, seq<real>))
    requires cfg.Valid()
    ensures var r := res.0;
            && r.aiX == (cfg.screenWidth / 2 - cfg.playerWidth / 2) as real
            && r.objects == [] && r.frameCount == 0 && r.steps == 0
            && !r.gameOver && r.collisionCount == 0 && r.maxSteps == e.maxSteps
    ensures |res.1| == ObservationSize && res.1 == Observation(cfg, res.0)
  {
    var r := e.(aiX := (cfg.screenWidth / 2 - cfg.playerWidth / 2) as real, objects := [],
                frameCount := 0, steps := 0, gameOver := false, collisionCount := 0);
    (r, Observation(cfg, r))
  }

  /** Ticks between spawns: 60 for the first thousand steps, 50 until three thousand, then 40. */
  function SpawnRate(steps: nat): (rate: nat)
    ensures rate == 40 || rate == 50 || rate == 60
    ensures steps < 1000 <==> rate == 60
    ensures 3000 <= steps <==> rate == 40
  {
    if steps < 1000 then 60 else if steps < 3000 then 50 else 40
  }

  /** Spawning never makes a later interval longer. */
  lemma SpawnRateNonIncreasing(a: nat, b: nat)
    requires a <= b
    ensures SpawnRate(b) <= SpawnRate(a)
  {
  }

  /** `_spawn_objects`: count the frame, then spawn on the interval unless the cap is reached. */
  function SpawnObjects(cfg: Config, e: Env, d: Draw): (r: Env)
    requires cfg.Valid() && InRange(cfg, d)
    ensures r == e.(frameCount := e.frameCount + 1, objects := r.objects)
    ensures (r.frameCount % SpawnRate(e.steps) == 0 && |e.objects| < MaxObjects) ==> r.objects == e.objects + [Spawn(cfg, d)]
    ensures !(r.frameCount % SpawnRate(e.steps) == 0 && |e.objects| < MaxObjects) ==> r.objects == e.objects
    ensures |e.objects| <= MaxObjects ==> |r.objects| <= MaxObjects
  {
    var frame := e.frameCount + 1;
    if frame % SpawnRate(e.steps) == 0 && |e.objects| < MaxObjects then
      e.(frameCount := frame, objects := e.objects + [Spawn(cfg, d)])
    else
      e.(frameCount := frame)
  }

  /** The player's rectangle: on the ground, at the configured size. */
  function GroundRect(cfg: Config, aiX: real): Rect {
    Rect(aiX, (cfg.screenHeight - cfg.playerHeight) as real, cfg.playerWidth as real, cfg.playerHeight as real)
  }

  /** `_check_collision`: some live object overlaps the player strictly. */
  predicate Collides(cfg: Config, e: Env) {
    exists o :: o in e.objects && Overlaps(GroundRect(cfg, e.aiX), ObjectRect(o))
  }

  /** Touching is not colliding: an object that only shares an edge with the player
      (on its left, right, top or bottom side) does not collide. */
  lemma TouchingIsNotColliding(cfg: Config, aiX: real, o: FallingObject)
    requires || (o.x + o.size) as real == aiX
             || o.x as real == aiX + cfg.playerWidth as real
             || o.y + o.size as real == (cfg.screenHeight - cfg.playerHeight) as real
             || o.y == cfg.screenHeight as real
    ensures !Overlaps(GroundRect(cfg, aiX), ObjectRect(o))
  {
  }

  /** An object counts as a near miss while it is just above the ground and its centre
      is within 80 of the player's. */
  predicate NearMiss(cfg: Config, aiX: real, o: FallingObject) {
    && (cfg.screenHeight - 120) as real < o.y < (cfg.screenHeight - 40) as real
    && Abs(aiX + (cfg.playerWidth / 2) as real - ObjectCenter(o) as real) < 80.0
  }

  function NearMissTerm(cfg: Config, aiX: real, o: FallingObject): real {
    if NearMiss(cfg, aiX, o) then NearMissBonus else 0.0
  }

  /** `_calculate_near_miss_reward`: 0.4 for every near miss. */
  function NearMissReward(cfg: Config, e: Env): (r: real)
    ensures r >= 0.0
  {
    SumOf(e.objects, o => NearMissTerm(cfg, e.aiX, o))
  }

  /** The near-miss objects, in order. */
  function NearMisses(cfg: Config, aiX: real, objs: seq<FallingObject>): (r: seq<FallingObject>)
    ensures forall o :: o in r <==> o in objs && NearMiss(cfg, aiX, o)
  {
    if objs == [] then []
    else (if NearMiss(cfg, aiX, objs[0]) then [objs[0]] else []) + NearMisses(cfg, aiX, objs[1..])
  }

  /** The reward is 0.4 times the number of near misses. */
  lemma {:induction false} NearMissRewardCounts(cfg: Config, aiX: real, objs: seq<FallingObject>)
    ensures SumOf(objs, o => NearMissTerm(cfg, aiX, o)) == NearMissBonus * |NearMisses(cfg, aiX, objs)| as real
  {
    if objs != [] {
      NearMissRewardCounts(cfg, aiX, objs[1..]);
    }
  }

  /** The effect of an action on the player's x: 1 is two steps left, 2 two steps
      right, each stopping at its wall; anything else stays. */
  function ActionX(cfg: Config, x: real, action: int): (r: real)
    requires cfg.Valid()
    ensures action == 1 ==> 0.0 <= r && (0.0 <= x ==> r <= x)
    ensures action == 1 && x - 2.0 * cfg.playerSpeed >= 0.0 ==> r == x - 2.0 * cfg.playerSpeed
    ensures action == 1 && x - 2.0 * cfg.playerSpeed < 0.0 ==> r == 0.0
    ensures action == 2 ==> r <= cfg.RightLimit(cfg.playerWidth)
    ensures action == 2 && x <= cfg.RightLimit(cfg.playerWidth) ==> r >= x
    ensures action == 2 && x + 2.0 * cfg.playerSpeed <= cfg.RightLimit(cfg.playerWidth) ==> r == x + 2.0 * cfg.playerSpeed
    ensures action == 2 && x + 2.0 * cfg.playerSpeed > cfg.RightLimit(cfg.playerWidth) ==> r == cfg.RightLimit(cfg.playerWidth)
    ensures action != 1 && action != 2 ==> r == x
  {
    if action == 1 then Max(0.0, x - cfg.playerSpeed * 2.0)
    else if action == 2 then Min(cfg.RightLimit(cfg.playerWidth), x + cfg.playerSpeed * 2.0)
    else x
  }

  /** Actions keep a player that starts inside the arena inside it. */
  lemma ActionKeepsInArena(cfg: Config, x: real, action: int)
    requires cfg.Valid() && 0.0 <= x <= cfg.RightLimit(cfg.playerWidth)
    ensures 0.0 <= ActionX(cfg, x, action) <= cfg.RightLimit(cfg.playerWidth)
  {
  }

  predicate AtEdge(cfg: Config, aiX: real) {
    aiX < EdgeMargin || aiX > cfg.RightLimit(cfg.playerWidth) - EdgeMargin
  }

  /** The objects after a step's `_spawn_objects`, which runs on the incremented frame
      count with the schedule of the incremented step count. */
  function Spawned(cfg: Config, e: Env, d: Draw): (s: seq<FallingObject>)
    requires cfg.Valid() && InRange(cfg, d)
    ensures (e.frameCount + 1) % SpawnRate(e.steps + 1) == 0 && |e.objects| < MaxObjects ==>
              s == e.objects + [Spawn(cfg, d)]
    ensures !((e.frameCount + 1) % SpawnRate(e.steps + 1) == 0 && |e.objects| < MaxObjects) ==>
              s == e.objects
  {
    SpawnObjects(cfg, e.(steps := e.steps + 1), d).objects
  }

  /** The part of a step before the collision test: count the step, act, spawn, let
      every object fall and drop those that left the arena. */
  function Advanced(cfg: Config, e: Env, action: int, d: Draw): (m: Env)
    requires cfg.Valid() && InRange(cfg, d)
    ensures m == e.(steps := e.steps + 1, aiX := m.aiX, frameCount := e.frameCount + 1, objects := m.objects)
    ensures m.aiX == ActionX(cfg, e.aiX, action)
    ensures m.objects == Prune(cfg, AdvanceAll(Spawned(cfg, e, d)))
    ensures forall o :: o in m.objects <==> o in AdvanceAll(Spawned(cfg, e, d)) && !IsOffScreen(cfg, o)
    ensures |e.objects| <= MaxObjects ==> |m.objects| <= MaxObjects
  {
    var e1 := e.(steps := e.steps + 1);
    var e2 := e1.(aiX := ActionX(cfg, e1.aiX, action));
    var e3 := SpawnObjects(cfg, e2, d);
    var spawned := Spawned(cfg, e, d);
    assert e3.objects == spawned;
    var fallen := AdvanceAll(spawned);
    assert |e.objects| <= MaxObjects ==> |fallen| <= MaxObjects;
    e3.(objects := Prune(cfg, fallen))
  }

  datatype StepResult = StepResult(env: Env, observation: seq<real>, reward: real, terminated: bool, truncated: bool)

  /** `step`: a finished episode answers with no reward; otherwise act, spawn, fall,
      prune, collide, observe and compose the reward. */
  function Step(cfg: Config, e: Env, action: int, d: Draw): (res: StepResult)
    requires cfg.Valid() && InRange(cfg, d)
    ensures e.gameOver ==>
              && res.env == e && res.reward == 0.0 && res.terminated && !res.truncated
              && res.observation == Observation(cfg, e)
    ensures |res.observation| == ObservationSize
    ensures !e.gameOver ==>
              var r := res.env;
              && r.steps == e.steps + 1 && r.maxSteps == e.maxSteps
              && r.aiX == ActionX(cfg, e.aiX, action)
              && r.frameCount == e.frameCount + 1
              && (forall o :: o in r.objects ==> !IsOffScreen(cfg, o))
              && res.observation == Observation(cfg, r)
              && r.collisionCount == e.collisionCount + (if Collides(cfg, r) then 1 else 0)
              && r.gameOver == (Collides(cfg, r) || r.steps >= e.maxSteps)
              && res.terminated == r.gameOver
              && res.truncated == (r.steps >= e.maxSteps)
              && res.reward ==
                   SurvivalReward + NearMissWeight * NearMissReward(cfg, r)
                   - (if AtEdge(cfg, r.aiX) then EdgePenalty else 0.0)
                   - (if Collides(cfg, r) then CollisionPenalty else 0.0)
                   + (if res.truncated then CompletionBonus else 0.0)
    ensures !e.gameOver && !Collides(cfg, res.env) ==> res.reward >= 0.0
    ensures !e.gameOver && Collides(cfg, res.env) && !res.truncated ==>
              res.reward <= NearMissWeight * NearMissReward(cfg, res.env) - 2.95
    ensures res.truncated ==> res.terminated
    ensures |e.objects| <= MaxObjects ==> |res.env.objects| <= MaxObjects
    // the objects: those of the last step plus one spawned on the schedule of the
    // incremented step count while under the cap, each fallen by its speed, minus
    // those that left the arena
    ensures !e.gameOver ==>
              && res.env.objects == Prune(cfg, AdvanceAll(Spawned(cfg, e, d)))
              && forall o :: o in res.env.objects <==> o in AdvanceAll(Spawned(cfg, e, d)) && !IsOffScreen(cfg, o)
  {
    if e.gameOver then
      StepResult(e, Observation(cfg, e), 0.0, true, false)
    else
      var e4 := Advanced(cfg, e, action, d);
      var collision := Collides(cfg, e4);
      var observation := Observation(cfg, e4);
      var near := NearMissReward(cfg, e4);
      var shaped := SurvivalReward + near * NearMissWeight - (if AtEdge(cfg, e4.aiX) then EdgePenalty else 0.0);
      var e5 := if collision then e4.(gameOver := true, collisionCount := e4.collisionCount + 1) else e4;
      var afterCollision := shaped - (if collision then CollisionPenalty else 0.0);
      var e6 := if e5.steps >= e5.maxSteps then e5.(gameOver := true) else e5;
      var reward := afterCollision + (if e5.steps >= e5.maxSteps then CompletionBonus else 0.0);
      StepResult(e6, observation, reward, e6.gameOver, e6.steps >= e6.maxSteps)
  }
}

=== FILE: wrappers.dfy ===
/** The optional-value datatype used where the game keeps "no value" (no winner yet,
    an impact time that is infinite). */
module Wrappers {

  datatype Option<+T> = None | Some(value: T)
}
